=== FILE: README.md ===
# GKK99 admin panel: authentication, authorisation and content editing

This project models the administrator side of the GKK99 landing page in Dafny and proves properties of the model. It covers four parts:

- **The in-browser mock service** (`src/services/api.ts`), modelled as `MockService`. It holds the seeded accounts, a credential table, the singleton content record, the service's token slot and the two browser-storage keys `admin_token` and `admin_user`.
- **The `auth-admin` serverless handler** (`supabase/functions/auth-admin/index.ts`), modelled as `AuthAdmin`:
  - `/login` checks the credentials and issues a session that lives 24 hours;
  - `/verify` resolves a Bearer token to its account;
  - `/logout` deletes the token's session.
- **The `admin-api` serverless handler** (`supabase/functions/admin-api/index.ts`), modelled as `AdminApi`:
  - authentication by a live session;
  - the account list and the account status toggle, reserved to `main_admin`;
  - reading and updating the content row.
- **The client hooks** `useAuth` and `useUsers` (`src/hooks/`), modelled as `UseAuth` and `UseUsers`. They are composed with the mock service, which is what they call.

Every operation is a pure step `(state, inputs) -> (reply, state')`. The handlers run over `Db.Database`, which holds three tables: `admin_users`, `user_sessions` and `site_content`.

Supporting modules:

- `Common` holds the JavaScript and PostgREST idioms the code relies on:
  - truthiness and `||` defaults;
  - `startsWith`, `endsWith` and `split`;
  - `filter` and `find`;
  - `.single()`, which returns exactly one row or an error;
  - decimal `toString`.
- `Types` holds the records of `src/types/index.ts`.
- `Http` holds requests, replies and the Bearer header.
- `Db` holds the tables, the session lookup shared by both handlers, the column mapping of the content row, and ordering by `created_at`.

Timestamps travel as ISO-8601 text. Here they are the instant they denote, in milliseconds (`Millis`).

Effects become parameters of each step:

- the clock is `now`; a login's three clock reads and the store-set `created_at` of its session are four separate instants of `Env` (`now`, `sessionCreatedAt`, `stampedAt`, `repliedAt`);
- `crypto.randomUUID()` is `Env.freshToken`;
- whether a session insert succeeds is `Env.insertSucceeds`;
- the password table is an abstract `map<string, string>`, and no credential value appears in the model.

The model follows the code as written, including these behaviours a reader might not expect:

- `/verify` in `auth-admin` does not look at `is_active`. A deactivated account's live session keeps verifying (`AuthAdmin.DeactivatedSessionStillVerifies`).
- `PUT /admin-api/content` writes `updated_by` but does not stamp `updated_at`.
- The mock's `updateContent` merges a shallow patch. A supplied `pricing` replaces the whole pricing object, and a patch may also overwrite `id` and `updatedBy`. The serverless `PUT` maps each pricing field on its own, so a body may carry only some of them, and it ignores `id`, `updatedAt` and `updatedBy` in the body.
- The mock's `getUsers` accepts any token and makes no role check.

## Model

| member | source | states |
|---|---|---|
| `Common.NatToStringInjective` | src/services/api.ts:305 | distinct numbers have distinct decimal text, so `(length + 1).toString()` ids never collide |
| `Common.SplitAtSeparator` | supabase/functions/admin-api/index.ts:118 | splitting `a + "/" + b`, with `a` slash-free, gives `a` followed by the pieces of `b` |
| `Common.FilterIdempotent` | supabase/functions/auth-admin/index.ts:213-216 | filtering twice by the same condition is filtering once |
| `Common.FilterAppend` | supabase/functions/auth-admin/index.ts:103-109 | the rows matching a condition after an insert are the old matches plus the new row if it matches |
| `Common.Single` | supabase/functions/admin-api/index.ts:48 | a result exactly when there is one row, and then that row |
| `Common.FirstIndex` | src/services/api.ts:137 | the first position satisfying the condition, or none when no position does |
| `Types.FormPatch` | src/components/AdminDashboard.tsx:14-46 | the form's patch carries title, description, the three links and pricing, and never the id, update time or editor |
| `Types.WholeEdit` | src/types/index.ts:22-38 | a PUT body that supplies every text field and every pricing field of a record |
| `MockService.Initial` | src/services/api.ts:10-61 | three seeded accounts, the first a `main_admin`; the token slot starts from storage |
| `MockService.InitialWellFormed` | src/services/api.ts:10-36 | the seed accounts have ids "1", "2", "3" in order and every main admin is active |
| `MockService.SequentialIdsUnique` | src/services/api.ts:304-311 | ids numbered by position are pairwise distinct |
| `MockService.SetToken` | src/services/api.ts:75-84 | the slot takes the token; storage keeps a non-empty token and drops an empty or absent one; nothing else changes |
| `MockService.Login` | src/services/api.ts:132-184 | refusals in the source's order (unknown user, disabled, wrong password) leave the state unchanged; success stamps `lastLogin`, stores a `mock_token_<id>_<now>` token and the user |
| `MockService.Logout` | src/services/api.ts:186-197 | no token in memory and both storage keys cleared; accounts and content kept |
| `MockService.VerifyToken` | src/services/api.ts:199-239 | succeeds exactly for a prefixed token, a stored user and an active account with its id, and answers with the current account |
| `MockService.GetUsers` | src/services/api.ts:243-264 | succeeds exactly when some token is held, with the full list; otherwise `Unauthorized` |
| `MockService.UpdateUserStatus` | src/services/api.ts:266-298 | unknown id and deactivating a main admin fail without change; every other request succeeds, setting exactly the target's flag and returning it |
| `MockService.CreateSubAdmin` | src/services/api.ts:300-325 | appends an active sub-admin with id `length + 1`, the given or empty name, no last login, created now |
| `MockService.GetContent` | src/services/api.ts:329-343 | always succeeds with the current record |
| `MockService.Merge` | src/services/api.ts:345-353 | for each of id, title, description, the three links, pricing and editor: omitted keeps the old value, supplied takes the patch's; pricing is replaced whole; the time is restamped |
| `MockService.UpdateContent` | src/services/api.ts:345-364 | the stored record becomes the merge and is returned |
| `MockService.LoginThenVerify` | src/services/api.ts:161-170 | right after a successful login, `verifyToken` succeeds with the account that logged in |
| `MockService.LogoutEndsSession` | src/services/api.ts:186-197 | after logout neither `verifyToken` nor `getUsers` succeeds, and logging out twice is logging out once |
| `MockService.NoCredentialNoLogin` | src/services/api.ts:153-159 | a username without a credential entry never logs in |
| `MockService.InitialCredentialsNameAccounts` | src/services/api.ts:38-42 | the seeded credential table names only seed accounts |
| `MockService.StepsKeepCredentialsNameAccounts` | src/services/api.ts:132-325 | login, status change and creation keep every credential naming an account |
| `MockService.CreatedAccountNeverLogsIn` | src/services/api.ts:137-159 | after `createSubAdmin`, a successful login finds an account that existed before, never the new one |
| `MockService.StepsKeepSequentialIds` | src/services/api.ts:300-311 | login, status change and creation keep ids numbered by position, hence unique |
| `MockService.StepsKeepMainAdminsActive` | src/services/api.ts:279-285 | no operation leaves a main admin inactive |
| `MockService.UpdateUserStatusIsLocal` | src/services/api.ts:286 | a status change touches only the accounts with that id, and only their flag |
| `MockService.SaveFormReplacesEditableFields` | src/services/api.ts:345-353 | saving the form sets every editable field, keeps id and editor, and saving twice equals saving once later |
| `MockService.EmptyPatchOnlyRestamps` | src/services/api.ts:350-352 | an empty patch changes only the update time |
| `Http.BearerToken` | supabase/functions/auth-admin/index.ts:155-166 | a token exactly for a header starting with `Bearer `, and the header is `Bearer ` + token |
| `Http.BearerRoundTrip` | supabase/functions/admin-api/index.ts:26-37 | the token is recovered from the header built from it |
| `Db.ToUser` | supabase/functions/auth-admin/index.ts:189-200 | the account's fields in camelCase, without the password hash |
| `Db.RowById` | supabase/functions/admin-api/index.ts:40-45 | the embedded account has the session's user id, and is absent only when no row has it |
| `Db.LookupSession` | supabase/functions/admin-api/index.ts:39-58 | found exactly when one unexpired session has the token; the account comes from the session's user id |
| `Db.LookupFindsAccount` | supabase/functions/auth-admin/index.ts:169-189 | under the foreign key a found session always brings its account |
| `Db.ContentMappingRoundTrip` | supabase/functions/admin-api/index.ts:190-206 | columns to nested record and back are inverse in both directions |
| `Db.UpdateFor` | supabase/functions/admin-api/index.ts:222-234 | each column is set exactly when the body supplies its field, pricing column by pricing column; the caller is always the editor |
| `Db.ApplyUpdate` | supabase/functions/admin-api/index.ts:220-236 | every column the update leaves undefined keeps its value, every supplied one takes it; id and update time kept, editor taken |
| `Db.InsertByCreatedAt` | supabase/functions/admin-api/index.ts:77 | inserting into an ascending list keeps it ascending and adds exactly the row |
| `Db.SortByCreatedAt` | supabase/functions/admin-api/index.ts:74-77 | ascending by `created_at` and a permutation of the rows |
| `AuthAdmin.StampLastLogin` | supabase/functions/auth-admin/index.ts:125-129 | only the rows with the account's id get `last_login := now` |
| `AuthAdmin.Login` | supabase/functions/auth-admin/index.ts:38-152 | 400 for a missing field, the unknown-or-inactive 401 unless one active row has the name, the wrong-password 401 with its own message, each with the store unchanged, exactly `500 Failed to create session` with the store unchanged when the insert fails; 200 exactly otherwise, adding a session expiring 24 hours after the first clock read, stamping `last_login` with the second read and replying with the third |
| `AuthAdmin.Verify` | supabase/functions/auth-admin/index.ts:154-207 | 401 `No token provided` without a Bearer header; 401 `Invalid or expired token` when no unexpired session has the token; 500 when the session's account is gone; 200 exactly when one live session and its account exist, answering with that account |
| `AuthAdmin.Logout` | supabase/functions/auth-admin/index.ts:209-227 | always 200; with a Bearer header, exactly the sessions with that token are gone |
| `AuthAdmin.Handle` | supabase/functions/auth-admin/index.ts:25-236 | pre-flight answers 200; `POST /auth-admin/login` logs in with the JSON body's fields (500 without one), `GET /auth-admin/verify` verifies at the request's instant, `POST /auth-admin/logout` logs out; any other request answers `404 Not found` with no change; nothing but login and logout changes the store |
| `AuthAdmin.SessionLifetime` | supabase/functions/auth-admin/index.ts:99-145 | a fresh session verifies exactly while `now < first read + 24h`; it answers with the reported account's id, name, role, flag and creation time, and with the stored `last_login` stamp, while the login reply carried the later third read |
| `AuthAdmin.VerifiedStampNotAfterReply` | supabase/functions/auth-admin/index.ts:125-139 | with the handler's clock reads in program order, the `lastLogin` `/verify` reports is never after the login reply's |
| `AuthAdmin.LogoutRevokes` | supabase/functions/auth-admin/index.ts:209-227 | after logout the token never verifies again, and a repeated logout changes nothing |
| `AuthAdmin.InactiveCannotLogIn` | supabase/functions/auth-admin/index.ts:55-75 | an account with no active row gets the same refusal as an unknown name |
| `AuthAdmin.DeactivatedSessionStillVerifies` | supabase/functions/auth-admin/index.ts:169-200 | verification ignores the account's active flag |
| `AuthAdmin.StampAndAddSessionKeepsInvariants` | supabase/functions/auth-admin/index.ts:99-129 | stamping an account's login time and adding a session for it keeps unique ids and names, sessions pointing at accounts, and active main admins |
| `AuthAdmin.LoginKeepsInvariants` | supabase/functions/auth-admin/index.ts:99-129 | a login keeps unique ids and names, sessions pointing at accounts, and active main admins |
| `AuthAdmin.HandleKeepsInvariants` | supabase/functions/auth-admin/index.ts:25-236 | every request keeps those constraints |
| `AdminApi.UsersPathSplit` | supabase/functions/admin-api/index.ts:107-118 | every path under `/admin-api/users/` splits as `""`, `admin-api`, `users`, then the pieces of the rest |
| `AdminApi.TargetId` | supabase/functions/admin-api/index.ts:118 | the fourth piece of the path split at `/` |
| `AdminApi.StatusPathTargetsId` | supabase/functions/admin-api/index.ts:107-118 | `PATCH /admin-api/users/{id}/status` reaches the toggle with `{id}` as target |
| `AdminApi.BareStatusPath` | supabase/functions/admin-api/index.ts:107-118 | `/admin-api/users/status` also reaches the toggle, with target `status` |
| `AdminApi.Authenticate` | supabase/functions/admin-api/index.ts:25-58 | 401 without a Bearer header or a live session; otherwise the session's account is the caller |
| `AdminApi.ProjectPermutation` | supabase/functions/admin-api/index.ts:89-96 | projecting a permutation of rows gives a permutation of accounts |
| `AdminApi.ListUsers` | supabase/functions/admin-api/index.ts:63-104 | 403 for a non-main admin; otherwise every account, oldest first |
| `AdminApi.SetStatus` | supabase/functions/admin-api/index.ts:107-171 | 403 for a non-main admin, 400 for deactivating a main admin, exactly the store's 500 unless the id names one row, all without change; a main admin's request on one row that does not deactivate a main admin answers 200 and sets exactly that row's flag |
| `AdminApi.GetContent` | supabase/functions/admin-api/index.ts:174-214 | 200 exactly when there is one content row, as the nested record |
| `AdminApi.PutContent` | supabase/functions/admin-api/index.ts:217-272 | 200 exactly with one content row; the supplied fields are written and the caller is recorded as editor |
| `AdminApi.Route` | supabase/functions/admin-api/index.ts:63-280 | `GET /admin-api/users` lists, `PATCH .../status` toggles, `GET` and `PUT /admin-api/content` read and write, each with the caller and body; any other request answers `404 Not found` with no change |
| `AdminApi.Handle` | supabase/functions/admin-api/index.ts:11-281 | pre-flight first; without a valid session 401 before any routing; with one, the request is routed with the session's account; sessions never change |
| `AdminApi.AuthenticationBeforeRouting` | supabase/functions/admin-api/index.ts:26-58 | even an unknown path answers 401 when unauthenticated, and changes nothing |
| `AdminApi.AccountRoutesNeedMainAdmin` | supabase/functions/admin-api/index.ts:63-116 | a successful account listing or status change means the caller is a main admin |
| `AdminApi.SetActiveKeepsInvariants` | supabase/functions/admin-api/index.ts:138-143 | setting one row's flag keeps the schema constraints, and main admins active unless one is deactivated |
| `AdminApi.SetStatusKeepsInvariants` | supabase/functions/admin-api/index.ts:107-171 | the toggle never deactivates a main admin |
| `AdminApi.HandleKeepsInvariants` | supabase/functions/admin-api/index.ts:11-281 | no request deactivates a main admin or breaks the schema constraints |
| `AdminApi.SaveThenReadBack` | supabase/functions/admin-api/index.ts:174-272 | a saved form reads back exactly, with the editor recorded; the PUT reply equals the next GET |
| `AdminApi.OmittedFieldsKept` | supabase/functions/admin-api/index.ts:222-234 | each of the five text columns and each of the five pricing columns keeps its value when the body omits it and takes the body's value when supplied; id kept, editor recorded |
| `AdminApi.WinRateOnlyUpdate` | supabase/functions/admin-api/index.ts:228-232 | a body with only `pricing.winRate` changes the win rate and the editor and leaves every other field, including the other pricing fields |
| `UseAuth.CheckAuth` | src/hooks/useAuth.ts:10-41 | logged out without both storage keys; otherwise the service's answer, and a refusal clears storage |
| `UseAuth.Login` | src/hooks/useAuth.ts:43-64 | success shows the account; failure keeps the shown user and records the message or `Login failed` |
| `UseAuth.Logout` | src/hooks/useAuth.ts:66-74 | no user shown and the service logged out |
| `UseAuth.RoleFlagsPartition` | src/hooks/useAuth.ts:87-89 | authenticated exactly when main admin or sub admin, never both |
| `UseAuth.LoginSurvivesNextCheck` | src/hooks/useAuth.ts:10-64 | after a successful login, the next `checkAuth` on the same page keeps the same account logged in |
| `UseAuth.LoginThenPageReload` | src/services/api.ts:10-72 | after a successful login, a page reload (the service rebuilt from its seed and storage) shows the active seed record with the logged-in id, or nobody when the id is not a seed id |
| `UseAuth.FailedLoginChangesNothing` | src/hooks/useAuth.ts:50-56 | a failed login changes neither service nor shown user and sets an error |
| `UseAuth.LogoutThenReload` | src/hooks/useAuth.ts:15-21 | after logout nobody is shown, by the next check on the same page and after a page reload |
| `UseAuth.RefusedCheckKeepsServiceToken` | src/hooks/useAuth.ts:28-33 | a refused check clears storage but the service's token still fetches the account list |
| `UseAuth.DeactivatedUserLoggedOutOnNextCheck` | src/services/api.ts:220-227 | an account deactivated after login is logged out by the next check on the same page |
| `UseUsers.ReplaceById` | src/hooks/useUsers.ts:35-37 | every position with the id takes the new record, the others are kept |
| `UseUsers.FetchUsersShared` | src/hooks/useUsers.ts:10-28 | as written: success keeps the service's own list; failure keeps the list and records `Unauthorized` |
| `UseUsers.FetchUsers` | src/hooks/useUsers.ts:10-28 | corrected: success holds a copy of the service's list; failure as above |
| `UseUsers.UpdateUserStatus` | src/hooks/useUsers.ts:30-48 | success replaces by id in the list read after the change; failure records the error and keeps the list |
| `UseUsers.CreateSubAdmin` | src/hooks/useUsers.ts:50-66 | appends the created account to the list read after the service appended it |
| `UseUsers.SharedFetchThenCreateDuplicates` | src/hooks/useUsers.ts:55 | with the list fetched as written, the new account shows twice |
| `UseUsers.FetchShowsServiceList` | src/hooks/useUsers.ts:17-18 | after a successful corrected fetch the hook shows the service's list |
| `UseUsers.ReplaceByUniqueId` | src/hooks/useUsers.ts:35-37 | with unique ids, replacing by id replaces exactly one position |
| `UseUsers.StatusKeepsHookInStep` | src/hooks/useUsers.ts:30-48 | a hook showing the service's list still shows it after a status change |
| `UseUsers.CreateKeepsHookInStep` | src/hooks/useUsers.ts:50-66 | a hook holding its own copy of the service's list still matches it after a creation |

## Left out

- The simulated network delay, JSON encoding, CORS headers, the generic `request` helper and `getAnalytics` of the mock service are not modelled: they move data without deciding anything.
- The handlers' `catch` paths (a body that is not JSON, a store call that throws) are reduced to the 500 reply where the model meets them. The mock service's and the hooks' exception paths are not modelled, because their steps cannot throw here.
- Store error messages are abstracted. A failed `.single()` gives one fixed message.
- An update whose `.single()` fails is modelled as leaving the table unchanged.
- A `PUT` against a table with several content rows is modelled the same way.
- The request body's `isActive` is a boolean. Non-boolean values sent by a client are not modelled.
- Two requests at the same instant are not distinguished.
- `MockService.Login`: one `now` stands for both clock reads of a mock login, the `lastLogin` stamp (src/services/api.ts:162) and the token's `Date.now()` (src/services/api.ts:91); the two can differ by a millisecond in the source, and the model ties them together.
- `UseAuth.LoginSurvivesNextCheck`: proved for the next `checkAuth` over the service's in-memory state only. After a page reload the service is rebuilt from its seed, so the check shows the seed record rather than the logged-in one; `UseAuth.LoginThenPageReload` states that case.
- `UseAuth.DeactivatedUserLoggedOutOnNextCheck`: holds on the same page only. A page reload re-seeds the accounts, so a deactivated seed account shows as active again.
- Concurrency between overlapping async calls is not modelled: each step is atomic.
- Object identity of single account records is not modelled. A hook list holds values, so an in-place change to a record the hook also references (`lastLogin` on login) is not reflected in a list of its own.
- The stored `admin_user` is kept as the record it encodes. `JSON.parse` failure is not modelled.
- `src/lib/supabase.ts` (the client for the hosted store used by the public page), the `useContent` and `usePublicContent` hooks and the React components are not part of this model.
- A store error on the `last_login` update after a login (supabase/functions/auth-admin/index.ts:126-129) is ignored by the handler; the model always stamps the login time and does not model a failing update.
- A failing account query in the listing (supabase/functions/admin-api/index.ts:79-87) would answer 500; `AdminApi.ListUsers` assumes the query succeeds and has no such path.
- A store error on the session delete at logout (supabase/functions/auth-admin/index.ts:215-218) is ignored by the handler; the model always deletes.
- JSON `null` in a PUT body field is not distinguished from an absent field: a field is either supplied as text or left out.
- `UseUsers.CreateSubAdmin`: the failure branch is kept for fidelity, but the mock service never takes it.

## Findings

| source | as written | input that shows it | evidently intended | confidence | as-written member | corrected member |
|---|---|---|---|---|---|---|
| src/hooks/useUsers.ts:18 | `fetchUsers` stores the array `getUsers` returns, which for the mock service is the service's own `MOCK_USERS` (src/services/api.ts:256); `createSubAdmin` pushes into that array and then appends `[...prev, newUser]` | a successful `fetchUsers`, then `createSubAdmin({username: "x"})`: the new account appears twice in the hook's list | the hook keeps a list of its own, which then equals the service's list after every step | not executed; high | `UseUsers.FetchUsersShared`, `UseUsers.SharedFetchThenCreateDuplicates` | `UseUsers.FetchUsers`, `UseUsers.CreateKeepsHookInStep` |

=== FILE: admin_api.dfy ===
/** The `admin-api` serverless handler: every request is authenticated
    first, then routed: account listing and the account status toggle are
    reserved to `main_admin` callers, and the content record can be read and
    updated by any authenticated administrator. */
module AdminApi {
  import opened Common
  import opened Types
  import opened Http
  import opened Db

  const MsgUnauthorized := "Unauthorized"
  const MsgInvalidToken := "Invalid or expired token"
  const MsgAccessDenied := "Access denied"
  const MsgCannotDeactivate := "Cannot deactivate main admin"
  /** The store's complaint when a singular result finds zero or several rows. */
  const MsgNotOneRow := "JSON object requested, multiple (or no) rows returned"

  const USERS_PATH := "/admin-api/users"
  const USERS_PREFIX := "/admin-api/users/"
  const STATUS_SUFFIX := "/status"
  const CONTENT_PATH := "/admin-api/content"

  // ----- path handling -----

  /** The leading segments of every path under `/admin-api/users/`. */
  lemma {:induction false} UsersPathSplit(path: string)
    requires StartsWith(path, USERS_PREFIX)
    ensures var parts := Split(path, '/');
      |parts| >= 4 && parts[..3] == ["", "admin-api", "users"]
      && parts[3..] == Split(path[|USERS_PREFIX|..], '/')
  {
    var rest := path[|USERS_PREFIX|..];
    var users: string := "users";
    var api: string := "admin-api";
    assert '/' !in users && '/' !in api;
    var s3 := users + ['/'] + rest;
    var s2 := api + ['/'] + s3;
    var s1 := [] + ['/'] + s2;
    assert s1 == path;
    SplitAtSeparator(users, rest, '/');
    SplitAtSeparator(api, s3, '/');
    SplitAtSeparator([], s2, '/');
  }

  /** `path.split('/')[3]`: the segment after `/admin-api/users/`. */
  function TargetId(path: string): (id: string)
    requires StartsWith(path, USERS_PREFIX)
    ensures |Split(path, '/')| >= 4 && id == Split(path, '/')[3]
  {
    UsersPathSplit(path);
    Split(path, '/')[3]
  }

  predicate IsStatusRoute(req: Request) {
    StartsWith(req.path, USERS_PREFIX) && EndsWith(req.path, STATUS_SUFFIX) && req.verb == PATCH
  }

  /** `PATCH /admin-api/users/{id}/status` is routed to the status toggle
      with `{id}` as its target, for any id without a slash. */
  lemma StatusPathTargetsId(id: string, auth: Option<string>, body: Body)
    requires '/' !in id
    ensures var req := Request(PATCH, USERS_PREFIX + id + STATUS_SUFFIX, auth, body);
      IsStatusRoute(req) && TargetId(req.path) == id
  {
    var path := USERS_PREFIX + id + STATUS_SUFFIX;
    var status: string := "status";
    var rest := id + ['/'] + status;
    assert path == USERS_PREFIX + rest;
    StartsWithConcat(USERS_PREFIX, rest);
    assert path[|path| - |STATUS_SUFFIX|..] == STATUS_SUFFIX;
    UsersPathSplit(path);
    assert '/' !in status;
    SplitAtSeparator(id, status, '/');
    SplitNoSeparator(status, '/');
  }

  /** The bare `/admin-api/users/status` also reaches the toggle, whose
      target is then the literal id `status`. */
  lemma BareStatusPath()
    ensures var path := USERS_PREFIX + "status";
      && StartsWith(path, USERS_PREFIX) && EndsWith(path, STATUS_SUFFIX)
      && TargetId(path) == "status"
  {
    var status: string := "status";
    var path := USERS_PREFIX + status;
    StartsWithConcat(USERS_PREFIX, status);
    assert path[|path| - |STATUS_SUFFIX|..] == STATUS_SUFFIX;
    UsersPathSplit(path);
    assert '/' !in status;
    SplitNoSeparator(status, '/');
  }

  // ----- authentication preamble -----

  datatype Auth = Rejected(response: Response) | Caller(user: Option<AdminRow>)

  /** The preamble run before routing: a Bearer header naming exactly one
      live session; the caller is that session's account. */
  function Authenticate(db: Database, authorization: Option<string>, now: Millis): (a: Auth)
    ensures BearerToken(authorization).None? ==> a == Rejected(Response(401, Error(MsgUnauthorized)))
    ensures a.Caller? <==>
      BearerToken(authorization).Some? && LookupSession(db, BearerToken(authorization).value, now).Found?
    ensures a.Caller? ==> a.user == LookupSession(db, BearerToken(authorization).value, now).user
    ensures a.Rejected? ==> a.response.status == 401
  {
    match BearerToken(authorization)
    case None => Rejected(Response(401, Error(MsgUnauthorized)))
    case Some(token) =>
      match LookupSession(db, token, now)
      case NoSession => Rejected(Response(401, Error(MsgInvalidToken)))
      case Found(_, user) => Caller(user)
  }

  // ----- accounts -----

  /** The rows as the client sees them. */
  function Project(rows: seq<AdminRow>): (us: seq<User>)
    ensures |us| == |rows|
    ensures forall i :: 0 <= i < |rows| ==> us[i] == ToUser(rows[i])
  {
    seq(|rows|, i requires 0 <= i < |rows| => ToUser(rows[i]))
  }

  lemma ProjectConcat(a: seq<AdminRow>, b: seq<AdminRow>)
    ensures Project(a + b) == Project(a) + Project(b)
  {
  }

  lemma MultisetRemove<T>(s: seq<T>, k: nat)
    requires k < |s|
    ensures multiset(s) == multiset(s[..k] + s[k + 1..]) + multiset{s[k]}
  {
    assert s == s[..k] + [s[k]] + s[k + 1..];
  }

  lemma MultisetCancel<T>(m: multiset<T>, n: multiset<T>, x: T)
    requires m + multiset{x} == n + multiset{x}
    ensures m == n
  {
    assert forall y :: m[y] == (m + multiset{x})[y] - multiset{x}[y];
    assert forall y :: n[y] == (n + multiset{x})[y] - multiset{x}[y];
  }

  lemma ProjectRemove(s: seq<AdminRow>, k: nat, rest: seq<AdminRow>)
    requires k < |s| && rest == s[..k] + s[k + 1..]
    ensures multiset(Project(s)) == multiset(Project(rest)) + multiset{ToUser(s[k])}
  {
    assert s == s[..k] + [s[k]] + s[k + 1..];
    ProjectConcat(s[..k] + [s[k]], s[k + 1..]);
    ProjectConcat(s[..k], [s[k]]);
    ProjectConcat(s[..k], s[k + 1..]);
  }

  /** The first row of `a` sits somewhere in any permutation `b` of it, and
      the rest of `a` is a permutation of `b` without that position. */
  lemma PermutationHead<T>(a: seq<T>, b: seq<T>) returns (k: nat)
    requires a != [] && multiset(a) == multiset(b)
    ensures k < |b| && b[k] == a[0]
    ensures multiset(a[1..]) == multiset(b[..k] + b[k + 1..])
  {
    assert a[0] in multiset(b);
    k :| 0 <= k < |b| && b[k] == a[0];
    MultisetRemove(a, 0);
    MultisetRemove(b, k);
    assert a[..0] + a[1..] == a[1..];
    MultisetCancel(multiset(a[1..]), multiset(b[..k] + b[k + 1..]), a[0]);
  }

  /** Projecting a permutation of the rows gives a permutation of the users. */
  lemma {:induction false} ProjectPermutation(a: seq<AdminRow>, b: seq<AdminRow>)
    requires multiset(a) == multiset(b)
    ensures multiset(Project(a)) == multiset(Project(b))
    decreases |a|
  {
    if a == [] {
      assert |multiset(b)| == 0;
    } else {
      var k := PermutationHead(a, b);
      var a', b' := a[1..], b[..k] + b[k + 1..];
      ProjectPermutation(a', b');
      assert a[..0] + a[1..] == a';
      ProjectRemove(a, 0, a');
      ProjectRemove(b, k, b');
    }
  }

  /** `GET /admin-api/users`: `main_admin` only; every account, oldest first,
      without credentials. */
  function ListUsers(db: Database, caller: AdminRow): (r: Response)
    ensures caller.role != MainAdmin ==> r == Response(403, Error(MsgAccessDenied))
    ensures caller.role == MainAdmin ==> r.status == 200 && r.payload.Accounts?
    ensures r.status == 200 ==>
      var us := r.payload.users;
      && multiset(us) == multiset(Project(db.adminUsers))
      && (forall i, j :: 0 <= i < j < |us| ==> us[i].createdAt <= us[j].createdAt)
  {
    if caller.role != MainAdmin then Response(403, Error(MsgAccessDenied))
    else
      var sorted := SortByCreatedAt(db.adminUsers);
      ProjectPermutation(sorted, db.adminUsers);
      Response(200, Accounts(Project(sorted)))
  }

  function RowsWithId(rows: seq<AdminRow>, id: string): seq<AdminRow> {
    Filter(rows, (a: AdminRow) => a.id == id)
  }

  function SetActive(rows: seq<AdminRow>, id: string, isActive: bool): (r: seq<AdminRow>)
    ensures |r| == |rows|
    ensures forall i :: 0 <= i < |rows| && rows[i].id != id ==> r[i] == rows[i]
    ensures forall i :: 0 <= i < |rows| && rows[i].id == id ==> r[i] == rows[i].(isActive := isActive)
  {
    seq(|rows|, i requires 0 <= i < |rows| =>
      if rows[i].id == id then rows[i].(isActive := isActive) else rows[i])
  }

  /** `PATCH /admin-api/users/{id}/status`: `main_admin` only; deactivating a
      `main_admin` is refused before any update; otherwise the one row with
      that id takes the new flag. */
  function SetStatus(db: Database, caller: AdminRow, userId: string, isActive: bool): (out: (Response, Database))
    ensures caller.role != MainAdmin ==> out == (Response(403, Error(MsgAccessDenied)), db)
    ensures var target := Single(RowsWithId(db.adminUsers, userId));
      (caller.role == MainAdmin && target.Some? && target.value.role == MainAdmin && !isActive)
        ==> out == (Response(400, Error(MsgCannotDeactivate)), db)
    ensures caller.role == MainAdmin && |RowsWithId(db.adminUsers, userId)| != 1 ==>
      out == (Response(500, Error(MsgNotOneRow)), db)
    ensures (caller.role == MainAdmin && |RowsWithId(db.adminUsers, userId)| == 1
             && (RowsWithId(db.adminUsers, userId)[0].role == MainAdmin ==> isActive)) ==>
      out.0.status == 200
    ensures out.0.status != 200 ==> out.1 == db
    ensures out.0.status == 200 ==>
      && |RowsWithId(db.adminUsers, userId)| == 1
      && out.1 == db.(adminUsers := SetActive(db.adminUsers, userId, isActive))
      && out.0.payload == Account(ToUser(RowsWithId(db.adminUsers, userId)[0].(isActive := isActive)))
  {
    if caller.role != MainAdmin then (Response(403, Error(MsgAccessDenied)), db)
    else
      var target := Single(RowsWithId(db.adminUsers, userId));
      if target.Some? && target.value.role == MainAdmin && !isActive then
        (Response(400, Error(MsgCannotDeactivate)), db)
      else if target.None? then
        (Response(500, Error(MsgNotOneRow)), db)
      else
        (Response(200, Account(ToUser(target.value.(isActive := isActive)))),
         db.(adminUsers := SetActive(db.adminUsers, userId, isActive)))
  }

  // ----- content -----

  /** `GET /admin-api/content`: the singleton row, as the nested record. */
  function GetContent(db: Database): (r: Response)
    ensures r.status == 200 <==> |db.siteContent| == 1
    ensures r.status == 200 ==> r.payload == SiteContent(FromRow(db.siteContent[0]))
  {
    match Single(db.siteContent)
    case None => Response(500, Error(MsgNotOneRow))
    case Some(row) => Response(200, SiteContent(FromRow(row)))
  }

  /** `PUT /admin-api/content`: the supplied fields are written, the editor
      is recorded as `updated_by` whatever the caller's role, and the reply is
      the written row. */
  function PutContent(db: Database, editor: AdminRow, e: ContentEdit): (out: (Response, Database))
    ensures out.0.status == 200 <==> |db.siteContent| == 1
    ensures out.0.status != 200 ==> out.1 == db
    ensures out.0.status == 200 ==>
      && out.1 == db.(siteContent := [ApplyUpdate(db.siteContent[0], UpdateFor(e, editor.username))])
      && out.0.payload == SiteContent(FromRow(out.1.siteContent[0]))
      && out.0.payload.content.updatedBy == editor.username
  {
    match Single(db.siteContent)
    case None => (Response(500, Error(MsgNotOneRow)), db)
    case Some(row) =>
      var row' := ApplyUpdate(row, UpdateFor(e, editor.username));
      (Response(200, SiteContent(FromRow(row'))), db.(siteContent := [row']))
  }

  // ----- router -----

  predicate IsListRoute(req: Request) {
    req.path == USERS_PATH && req.verb == GET
  }

  predicate IsContentRead(req: Request) {
    req.path == CONTENT_PATH && req.verb == GET
  }

  predicate IsContentWrite(req: Request) {
    req.path == CONTENT_PATH && req.verb == PUT
  }

  /** Routes an authenticated request, in the handler's order of tests. A
      dangling session (no account) makes every route that reads the caller
      fail with an internal error; a path no route matches is not found. */
  function Route(db: Database, caller: Option<AdminRow>, req: Request): (out: (Response, Database))
    ensures IsListRoute(req) ==>
      out == (if caller.None? then Response(500, Error(MsgInternal)) else ListUsers(db, caller.value), db)
    ensures IsStatusRoute(req) && caller.None? ==> out == (Response(500, Error(MsgInternal)), db)
    ensures IsStatusRoute(req) && caller.Some? && req.body.Json? ==>
      out == SetStatus(db, caller.value, TargetId(req.path), req.body.isActive)
    ensures IsStatusRoute(req) && caller.Some? && req.body.NoJson? ==>
      out == (Response(if caller.value.role != MainAdmin then 403 else 500,
                       if caller.value.role != MainAdmin then Error(MsgAccessDenied) else Error(MsgInternal)), db)
    ensures IsContentRead(req) ==> out == (GetContent(db), db)
    ensures IsContentWrite(req) && caller.Some? && req.body.Json? ==>
      out == PutContent(db, caller.value, req.body.updates)
    ensures IsContentWrite(req) && (caller.None? || req.body.NoJson?) ==>
      out == (Response(500, Error(MsgInternal)), db)
    ensures !IsListRoute(req) && !IsStatusRoute(req) && !IsContentRead(req) && !IsContentWrite(req) ==>
      out == (Response(404, Error(MsgNotFound)), db)
  {
    if IsListRoute(req) then
      match caller
      case None => (Response(500, Error(MsgInternal)), db)
      case Some(c) => (ListUsers(db, c), db)
    else if IsStatusRoute(req) then
      match (caller, req.body)
      case (None, _) => (Response(500, Error(MsgInternal)), db)
      case (Some(c), NoJson) =>
        if c.role != MainAdmin then (Response(403, Error(MsgAccessDenied)), db)
        else (Response(500, Error(MsgInternal)), db)
      case (Some(c), Json(_, _, isActive, _)) => SetStatus(db, c, TargetId(req.path), isActive)
    else if IsContentRead(req) then
      (GetContent(db), db)
    else if IsContentWrite(req) then
      match (caller, req.body)
      case (Some(c), Json(_, _, _, updates)) => PutContent(db, c, updates)
      case _ => (Response(500, Error(MsgInternal)), db)
    else (Response(404, Error(MsgNotFound)), db)
  }

  /** The handler: pre-flight, then authentication, then routing. */
  function Handle(db: Database, req: Request, now: Millis): (out: (Response, Database))
    ensures req.verb == OPTIONS ==> out == (Response(200, Preflight), db)
    ensures req.verb != OPTIONS && BearerToken(req.authorization).None? ==>
      out == (Response(401, Error(MsgUnauthorized)), db)
    ensures req.verb != OPTIONS && out.0.status != 401 ==>
      && BearerToken(req.authorization).Some?
      && LookupSession(db, BearerToken(req.authorization).value, now).Found?
    ensures req.verb != OPTIONS && Authenticate(db, req.authorization, now).Caller? ==>
      out == Route(db, Authenticate(db, req.authorization, now).user, req)
    ensures out.1.userSessions == db.userSessions
  {
    if req.verb == OPTIONS then (Response(200, Preflight), db)
    else match Authenticate(db, req.authorization, now)
      case Rejected(r) => (r, db)
      case Caller(user) => Route(db, user, req)
  }

  // ----- properties across requests -----

  /** A request without a valid Bearer header is refused before routing, so
      even a path that does not exist answers 401 rather than 404. */
  lemma AuthenticationBeforeRouting(db: Database, req: Request, now: Millis)
    requires req.verb != OPTIONS
    requires BearerToken(req.authorization).None? ||
             LookupSession(db, BearerToken(req.authorization).value, now).NoSession?
    ensures Handle(db, req, now).0.status == 401
    ensures Handle(db, req, now).1 == db
  {
  }

  /** Only a `main_admin` caller can list accounts or change a status. */
  lemma AccountRoutesNeedMainAdmin(db: Database, req: Request, now: Millis)
    requires req.verb != OPTIONS
    requires (req.path == USERS_PATH && req.verb == GET) || IsStatusRoute(req)
    requires Handle(db, req, now).0.status == 200
    ensures var l := LookupSession(db, BearerToken(req.authorization).value, now);
      l.Found? && l.user.Some? && l.user.value.role == MainAdmin
  {
  }

  /** Setting the flag of the one row with `userId` keeps the schema
      constraints, and keeps main admins active unless that row is a main
      admin being deactivated. */
  lemma SetActiveKeepsInvariants(db: Database, userId: string, isActive: bool)
    requires WellFormed(db) && MainAdminsActive(db.adminUsers)
    requires |RowsWithId(db.adminUsers, userId)| == 1
    requires RowsWithId(db.adminUsers, userId)[0].role == MainAdmin ==> isActive
    ensures WellFormed(db.(adminUsers := SetActive(db.adminUsers, userId, isActive)))
    ensures MainAdminsActive(SetActive(db.adminUsers, userId, isActive))
  {
    var rows := RowsWithId(db.adminUsers, userId);
    var after := SetActive(db.adminUsers, userId, isActive);
    forall i | 0 <= i < |db.adminUsers| && after[i].role == MainAdmin
      ensures after[i].isActive
    {
      if db.adminUsers[i].id == userId {
        assert db.adminUsers[i] in rows;
      }
    }
    forall s | s in db.userSessions
      ensures exists i :: 0 <= i < |after| && after[i].id == s.userId
    {
      var i :| 0 <= i < |db.adminUsers| && db.adminUsers[i].id == s.userId;
      assert after[i].id == s.userId;
    }
  }

  /** The status toggle never deactivates a `main_admin` and keeps the
      schema constraints. */
  lemma SetStatusKeepsInvariants(db: Database, caller: AdminRow, userId: string, isActive: bool)
    requires WellFormed(db) && MainAdminsActive(db.adminUsers)
    ensures WellFormed(SetStatus(db, caller, userId, isActive).1)
    ensures MainAdminsActive(SetStatus(db, caller, userId, isActive).1.adminUsers)
  {
    if SetStatus(db, caller, userId, isActive).0.status == 200 {
      var rows := RowsWithId(db.adminUsers, userId);
      assert Single(rows) == Some(rows[0]);
      SetActiveKeepsInvariants(db, userId, isActive);
    }
  }

  /** No request ever deactivates a `main_admin` or breaks the schema
      constraints. */
  lemma HandleKeepsInvariants(db: Database, req: Request, now: Millis)
    requires WellFormed(db) && MainAdminsActive(db.adminUsers)
    ensures WellFormed(Handle(db, req, now).1)
    ensures MainAdminsActive(Handle(db, req, now).1.adminUsers)
  {
    if req.verb != OPTIONS {
      var a := Authenticate(db, req.authorization, now);
      if a.Caller? && a.user.Some? && req.body.Json? {
        var c := a.user.value;
        if !(req.path == USERS_PATH && req.verb == GET) && IsStatusRoute(req) {
          SetStatusKeepsInvariants(db, c, TargetId(req.path), req.body.isActive);
        } else if req.path == CONTENT_PATH && req.verb == PUT {
          assert Route(db, a.user, req).1.adminUsers == db.adminUsers;
        }
      }
    }
  }

  /** Saving the whole form and reading the content back returns exactly what
      was saved in all ten editable fields, with the editor recorded; the PUT
      reply already equals what the next GET returns. */
  lemma SaveThenReadBack(db: Database, editor: AdminRow, form: Content)
    requires |db.siteContent| == 1
    ensures var (r, db') := PutContent(db, editor, WholeEdit(form));
      && r.status == 200
      && GetContent(db') == r
      && r.payload.content == form.(id := db.siteContent[0].id,
                                    updatedAt := db.siteContent[0].updatedAt,
                                    updatedBy := editor.username)
  {
  }

  /** Every field of a PUT, down to each pricing field, is written when
      supplied and keeps its stored value when left out. */
  lemma OmittedFieldsKept(db: Database, editor: AdminRow, e: ContentEdit)
    requires |db.siteContent| == 1
    ensures var c := FromRow(db.siteContent[0]);
      var c' := PutContent(db, editor, e).0.payload.content;
      var pe := if e.pricing.Some? then e.pricing.value else PricingEdit(None, None, None, None, None);
      && Replaced(e.title, c.title, c'.title)
      && Replaced(e.description, c.description, c'.description)
      && Replaced(e.gkk99Link, c.gkk99Link, c'.gkk99Link)
      && Replaced(e.gkk777Link, c.gkk777Link, c'.gkk777Link)
      && Replaced(e.viberLink, c.viberLink, c'.viberLink)
      && Replaced(pe.slots, c.pricing.slots, c'.pricing.slots)
      && Replaced(pe.freeSpin, c.pricing.freeSpin, c'.pricing.freeSpin)
      && Replaced(pe.winRate, c.pricing.winRate, c'.pricing.winRate)
      && Replaced(pe.gkk99Bonus, c.pricing.gkk99Bonus, c'.pricing.gkk99Bonus)
      && Replaced(pe.gkk777Bonus, c.pricing.gkk777Bonus, c'.pricing.gkk777Bonus)
      && c'.id == c.id && c'.updatedAt == c.updatedAt && c'.updatedBy == editor.username
  {
  }

  /** A PUT whose body is `{pricing: {winRate}}` changes the win rate alone:
      the other four pricing columns and every other field keep their values. */
  lemma WinRateOnlyUpdate(db: Database, editor: AdminRow, rate: string)
    requires |db.siteContent| == 1
    ensures var c := FromRow(db.siteContent[0]);
      var e := ContentEdit(None, None, None, None, None, Some(PricingEdit(None, None, Some(rate), None, None)));
      var (r, db') := PutContent(db, editor, e);
      && r.status == 200
      && r.payload.content == c.(pricing := c.pricing.(winRate := rate), updatedBy := editor.username)
      && db'.siteContent[0].pricingSlots == db.siteContent[0].pricingSlots
  {
  }
}

=== FILE: auth_admin.dfy ===
/** The `auth-admin` serverless handler: `/login` issues a session that lives
    24 hours, `/verify` checks a Bearer token against the live sessions, and
    `/logout` deletes the token's session. The clock, the token generator and
    the outcome of the session insert are inputs of each step. */
module AuthAdmin {
  import opened Common
  import opened Types
  import opened Http
  import opened Db

  const SESSION_LIFETIME_MS: nat := 24 * 60 * 60 * 1000

  const MsgCredentialsRequired := "အသုံးပြုသူအမည် နှင့် စကားဝှက် လိုအပ်ပါသည်"
  const MsgUnknownOrInactive := "အသုံးပြုသူအမည် မတွေ့ရှိပါ သို့မဟုတ် အကောင့်ကို ပိတ်ထားပါသည်"
  const MsgWrongPassword := "စကားဝှက် မှားယွင်းနေပါသည်"
  const MsgSessionFailed := "Session ဖန်တီးရာတွင် ပြဿနာရှိနေပါသည်"
  const MsgLoginSucceeded := "အောင်မြင်စွာ ဝင်ရောက်ပြီးပါပြီ"
  const MsgInvalidOrExpired := "Invalid or expired token"

  /** What one request sees of the world. A login reads the clock three times
      and the store sets a fourth instant: `now` is the first read (the
      expiry, and the instant `/verify` compares against), `sessionCreatedAt`
      the store's `created_at` of the new session, `stampedAt` the read for
      the stored `last_login` and `repliedAt` the read for the reply's
      `lastLogin`. Also the token the random generator would return, and
      whether the session insert would succeed. */
  datatype Env = Env(now: Millis, sessionCreatedAt: Millis, stampedAt: Millis, repliedAt: Millis,
                     freshToken: string, insertSucceeds: bool)

  /** The handler's own clock reads in program order: the `last_login` stamp
      is read before the reply's. (The session's `created_at` comes from the
      store's clock, so nothing orders it against these.) */
  predicate ClockOrdered(env: Env) {
    env.now <= env.stampedAt <= env.repliedAt
  }

  /** The active accounts carrying `username` (the `.eq` / `.eq` query). */
  function ActiveByUsername(rows: seq<AdminRow>, username: string): seq<AdminRow> {
    Filter(rows, (a: AdminRow) => a.username == username && a.isActive)
  }

  /** The `last_login` update of one account. */
  function StampLastLogin(rows: seq<AdminRow>, id: string, now: Millis): (r: seq<AdminRow>)
    ensures |r| == |rows|
    ensures forall i :: 0 <= i < |rows| && rows[i].id != id ==> r[i] == rows[i]
    ensures forall i :: 0 <= i < |rows| && rows[i].id == id ==> r[i] == rows[i].(lastLogin := Some(now))
  {
    seq(|rows|, i requires 0 <= i < |rows| =>
      if rows[i].id == id then rows[i].(lastLogin := Some(now)) else rows[i])
  }

  /** `/login`: empty fields are refused before any lookup; an unknown and an
      inactive username get the same refusal; a wrong password, or a failed
      session insert, leaves the store untouched. */
  function Login(db: Database, passwords: map<string, string>,
                 username: Option<string>, password: Option<string>, env: Env): (out: (Response, Database))
    ensures !Truthy(username) || !Truthy(password) ==>
      out == (Response(400, Refusal(MsgCredentialsRequired)), db)
    ensures Truthy(username) && Truthy(password) && |ActiveByUsername(db.adminUsers, username.value)| != 1 ==>
      out == (Response(401, Refusal(MsgUnknownOrInactive)), db)
    ensures Truthy(username) && Truthy(password) && !PasswordMatches(passwords, username.value, password.value) ==>
      out.0.status == 401 && out.1 == db
    ensures (Truthy(username) && Truthy(password) && |ActiveByUsername(db.adminUsers, username.value)| == 1
             && !PasswordMatches(passwords, username.value, password.value)) ==>
      out == (Response(401, Refusal(MsgWrongPassword)), db)
    ensures (Truthy(username) && Truthy(password) && |ActiveByUsername(db.adminUsers, username.value)| == 1
             && PasswordMatches(passwords, username.value, password.value) && !env.insertSucceeds) ==>
      out == (Response(500, Refusal(MsgSessionFailed)), db)
    ensures out.0.status == 200 <==>
      && Truthy(username) && Truthy(password)
      && |ActiveByUsername(db.adminUsers, username.value)| == 1
      && PasswordMatches(passwords, username.value, password.value)
      && env.insertSucceeds
    ensures out.0.status != 200 ==> out.1 == db
    ensures out.0.status == 200 ==>
      var row := ActiveByUsername(db.adminUsers, username.value)[0];
      && out.1.userSessions == db.userSessions + [SessionRow(row.id, env.freshToken, env.now + SESSION_LIFETIME_MS, env.sessionCreatedAt)]
      && out.1.adminUsers == StampLastLogin(db.adminUsers, row.id, env.stampedAt)
      && out.1.siteContent == db.siteContent
      && out.0.payload == LoggedIn(ToUser(row).(lastLogin := Some(env.repliedAt)), env.freshToken, MsgLoginSucceeded)
  {
    if !Truthy(username) || !Truthy(password) then
      (Response(400, Refusal(MsgCredentialsRequired)), db)
    else match Single(ActiveByUsername(db.adminUsers, username.value))
      case None => (Response(401, Refusal(MsgUnknownOrInactive)), db)
      case Some(row) =>
        if !PasswordMatches(passwords, username.value, password.value) then
          (Response(401, Refusal(MsgWrongPassword)), db)
        else if !env.insertSucceeds then
          (Response(500, Refusal(MsgSessionFailed)), db)
        else
          var session := SessionRow(row.id, env.freshToken, env.now + SESSION_LIFETIME_MS, env.sessionCreatedAt);
          var db' := db.(userSessions := db.userSessions + [session],
                         adminUsers := StampLastLogin(db.adminUsers, row.id, env.stampedAt));
          (Response(200, LoggedIn(ToUser(row).(lastLogin := Some(env.repliedAt)), env.freshToken, MsgLoginSucceeded)), db')
  }

  /** `/verify`: a missing or non-Bearer header is refused; otherwise the
      token must name exactly one session that has not expired. */
  function Verify(db: Database, authorization: Option<string>, now: Millis): (r: Response)
    ensures BearerToken(authorization).None? ==> r == Response(401, Error("No token provided"))
    ensures BearerToken(authorization).Some? && LookupSession(db, BearerToken(authorization).value, now).NoSession? ==>
      r == Response(401, Error(MsgInvalidOrExpired))
    ensures BearerToken(authorization).Some? ==>
      var l := LookupSession(db, BearerToken(authorization).value, now);
      l.Found? && l.user.None? ==> r == Response(500, Error(MsgInternal))
    ensures r.status == 200 <==>
      && BearerToken(authorization).Some?
      && var l := LookupSession(db, BearerToken(authorization).value, now);
         l.Found? && l.user.Some?
    ensures r.status == 200 ==>
      r.payload == Account(ToUser(LookupSession(db, BearerToken(authorization).value, now).user.value))
  {
    match BearerToken(authorization)
    case None => Response(401, Error("No token provided"))
    case Some(token) =>
      match LookupSession(db, token, now)
      case NoSession => Response(401, Error(MsgInvalidOrExpired))
      case Found(_, None) => Response(500, Error(MsgInternal))
      case Found(_, Some(row)) => Response(200, Account(ToUser(row)))
  }

  /** `/logout`: with a Bearer header, every session carrying its token is
      deleted; the reply is success whatever was deleted. */
  function Logout(db: Database, authorization: Option<string>): (out: (Response, Database))
    ensures out.0 == Response(200, Done)
    ensures BearerToken(authorization).None? ==> out.1 == db
    ensures BearerToken(authorization).Some? ==>
      && out.1.adminUsers == db.adminUsers && out.1.siteContent == db.siteContent
      && (forall s :: s in out.1.userSessions ==> s in db.userSessions && s.token != BearerToken(authorization).value)
      && (forall s :: s in db.userSessions && s.token != BearerToken(authorization).value ==> s in out.1.userSessions)
  {
    match BearerToken(authorization)
    case None => (Response(200, Done), db)
    case Some(token) =>
      (Response(200, Done), db.(userSessions := Filter(db.userSessions, (s: SessionRow) => s.token != token)))
  }

  /** The three routes the handler answers. */
  predicate IsAuthRoute(req: Request) {
    || (req.path == "/auth-admin/login" && req.verb == POST)
    || (req.path == "/auth-admin/verify" && req.verb == GET)
    || (req.path == "/auth-admin/logout" && req.verb == POST)
  }

  /** The request router, in the handler's order of tests. */
  function Handle(db: Database, passwords: map<string, string>, req: Request, env: Env): (out: (Response, Database))
    ensures req.verb == OPTIONS ==> out == (Response(200, Preflight), db)
    ensures out.1 != db ==> req.path == "/auth-admin/login" || req.path == "/auth-admin/logout"
    ensures req.path == "/auth-admin/login" && req.verb == POST ==>
      && (req.body.Json? ==> out == Login(db, passwords, req.body.username, req.body.password, env))
      && (req.body.NoJson? ==> out == (Response(500, Error(MsgInternal)), db))
    ensures req.path == "/auth-admin/verify" && req.verb == GET ==>
      out == (Verify(db, req.authorization, env.now), db)
    ensures req.path == "/auth-admin/logout" && req.verb == POST ==>
      out == Logout(db, req.authorization)
    ensures req.verb != OPTIONS && !IsAuthRoute(req) ==>
      out == (Response(404, Error(MsgNotFound)), db)
  {
    if req.verb == OPTIONS then (Response(200, Preflight), db)
    else if req.path == "/auth-admin/login" && req.verb == POST then
      match req.body
      case NoJson => (Response(500, Error(MsgInternal)), db)
      case Json(username, password, _, _) => Login(db, passwords, username, password, env)
    else if req.path == "/auth-admin/verify" && req.verb == GET then
      (Verify(db, req.authorization, env.now), db)
    else if req.path == "/auth-admin/logout" && req.verb == POST then
      Logout(db, req.authorization)
    else (Response(404, Error(MsgNotFound)), db)
  }

  // ----- properties across requests -----

  /** A session issued at instant `t` with a fresh token verifies exactly while
      `now < t + 24h`. It answers with the account the login reported, except
      that `lastLogin` is the stored stamp rather than the reply's later
      clock read. */
  lemma SessionLifetime(db: Database, passwords: map<string, string>,
                        username: Option<string>, password: Option<string>, env: Env, now: Millis)
    requires WellFormed(db)
    requires forall s :: s in db.userSessions ==> s.token != env.freshToken
    requires Login(db, passwords, username, password, env).0.status == 200
    ensures var (r, db') := Login(db, passwords, username, password, env);
      var v := Verify(db', Some(BEARER + env.freshToken), now);
      && (v.status == 200 <==> now < env.now + SESSION_LIFETIME_MS)
      && r.payload.user.lastLogin == Some(env.repliedAt)
      && (v.status == 200 ==> v.payload == Account(r.payload.user.(lastLogin := Some(env.stampedAt))))
  {
    var (r, db') := Login(db, passwords, username, password, env);
    var token := env.freshToken;
    var row := ActiveByUsername(db.adminUsers, username.value)[0];
    var session := SessionRow(row.id, token, env.now + SESSION_LIFETIME_MS, env.sessionCreatedAt);
    BearerRoundTrip(token);
    var live := (x: SessionRow) => x.token == token && x.expiresAt > now;
    FilterAppend(db.userSessions, session, live);
    FilterNone(db.userSessions, live);
    assert LiveSessions(db'.userSessions, token, now) == (if now < env.now + SESSION_LIFETIME_MS then [session] else []);
    var k :| 0 <= k < |db.adminUsers| && db.adminUsers[k] == row;
    RowByIdUnique(db'.adminUsers, k);
  }

  /** Within one ordered login, the `lastLogin` a later `/verify` reports is
      never after the one the login reply carried. */
  lemma VerifiedStampNotAfterReply(db: Database, passwords: map<string, string>,
                                   username: Option<string>, password: Option<string>, env: Env, now: Millis)
    requires WellFormed(db) && ClockOrdered(env)
    requires forall s :: s in db.userSessions ==> s.token != env.freshToken
    requires Login(db, passwords, username, password, env).0.status == 200
    ensures var (r, db') := Login(db, passwords, username, password, env);
      var v := Verify(db', Some(BEARER + env.freshToken), now);
      v.status == 200 ==> v.payload.user.lastLogin.value <= r.payload.user.lastLogin.value
  {
    SessionLifetime(db, passwords, username, password, env, now);
  }

  /** After `/logout` with a Bearer header, that token no longer verifies at
      any instant, and a repeated `/logout` changes nothing more. */
  lemma LogoutRevokes(db: Database, authorization: Option<string>, now: Millis)
    requires BearerToken(authorization).Some?
    ensures Verify(Logout(db, authorization).1, authorization, now) == Response(401, Error(MsgInvalidOrExpired))
    ensures Logout(Logout(db, authorization).1, authorization) == Logout(db, authorization)
  {
    var token := BearerToken(authorization).value;
    var keep := (s: SessionRow) => s.token != token;
    var after := Filter(db.userSessions, keep);
    FilterNone(after, (s: SessionRow) => s.token == token && s.expiresAt > now);
    FilterIdempotent(db.userSessions, keep);
  }

  /** An account whose every row is inactive cannot log in, whatever the
      password; it gets the same refusal as an unknown username. */
  lemma InactiveCannotLogIn(db: Database, passwords: map<string, string>,
                            username: string, password: string, env: Env)
    requires username != "" && password != ""
    requires forall i :: 0 <= i < |db.adminUsers| && db.adminUsers[i].username == username ==> !db.adminUsers[i].isActive
    ensures Login(db, passwords, Some(username), Some(password), env)
      == (Response(401, Refusal(MsgUnknownOrInactive)), db)
  {
    FilterNone(db.adminUsers, (a: AdminRow) => a.username == username && a.isActive);
  }

  /** `/verify` does not consult the account's active flag: a deactivated
      account's live session still verifies. */
  lemma DeactivatedSessionStillVerifies(db: Database, authorization: Option<string>, now: Millis)
    requires BearerToken(authorization).Some?
    requires var l := LookupSession(db, BearerToken(authorization).value, now);
      l.Found? && l.user.Some? && !l.user.value.isActive
    ensures Verify(db, authorization, now).status == 200
  {
  }

  /** Stamping an account's login time and adding a session for it keeps the
      schema constraints and the active flags. */
  lemma StampAndAddSessionKeepsInvariants(db: Database, k: nat, session: SessionRow, now: Millis)
    requires WellFormed(db) && MainAdminsActive(db.adminUsers)
    requires k < |db.adminUsers| && session.userId == db.adminUsers[k].id
    ensures var db' := db.(userSessions := db.userSessions + [session],
                           adminUsers := StampLastLogin(db.adminUsers, db.adminUsers[k].id, now));
      WellFormed(db') && MainAdminsActive(db'.adminUsers)
  {
    var db' := db.(userSessions := db.userSessions + [session],
                   adminUsers := StampLastLogin(db.adminUsers, db.adminUsers[k].id, now));
    assert db'.adminUsers[k].id == session.userId;
    forall s | s in db'.userSessions
      ensures exists i :: 0 <= i < |db'.adminUsers| && db'.adminUsers[i].id == s.userId
    {
      if s in db.userSessions {
        var i :| 0 <= i < |db.adminUsers| && db.adminUsers[i].id == s.userId;
        assert db'.adminUsers[i].id == s.userId;
      } else {
        assert s == session;
      }
    }
  }

  /** A successful `/login` keeps the schema constraints: the new session
      refers to the account that logged in. */
  lemma LoginKeepsInvariants(db: Database, passwords: map<string, string>,
                             username: Option<string>, password: Option<string>, env: Env)
    requires WellFormed(db) && MainAdminsActive(db.adminUsers)
    ensures WellFormed(Login(db, passwords, username, password, env).1)
    ensures MainAdminsActive(Login(db, passwords, username, password, env).1.adminUsers)
  {
    var out := Login(db, passwords, username, password, env);
    if out.0.status == 200 {
      var row := ActiveByUsername(db.adminUsers, username.value)[0];
      var k :| 0 <= k < |db.adminUsers| && db.adminUsers[k] == row;
      var session := SessionRow(row.id, env.freshToken, env.now + SESSION_LIFETIME_MS, env.sessionCreatedAt);
      StampAndAddSessionKeepsInvariants(db, k, session, env.stampedAt);
      assert out.1 == db.(userSessions := db.userSessions + [session],
                          adminUsers := StampLastLogin(db.adminUsers, row.id, env.stampedAt));
    }
  }

  /** Every request keeps the schema constraints and never deactivates an
      account, so in particular every `main_admin` stays active. */
  lemma HandleKeepsInvariants(db: Database, passwords: map<string, string>, req: Request, env: Env)
    requires WellFormed(db) && MainAdminsActive(db.adminUsers)
    ensures WellFormed(Handle(db, passwords, req, env).1)
    ensures MainAdminsActive(Handle(db, passwords, req, env).1.adminUsers)
  {
    if req.verb != OPTIONS && req.path == "/auth-admin/login" && req.verb == POST && req.body.Json? {
      LoginKeepsInvariants(db, passwords, req.body.username, req.body.password, env);
    }
  }
}

=== FILE: common.dfy ===
/** Small sequence and string utilities shared by every layer of the model:
    an optional value, JavaScript truthiness of strings, prefix/suffix tests,
    decimal rendering of numbers, `split`, filtering and first-match search. */
module Common {

  datatype Option<+T> = None | Some(value: T)

  /** A JavaScript string that is neither `null`/`undefined` nor empty is truthy. */
  predicate Truthy(o: Option<string>) {
    o.Some? && o.value != ""
  }

  /** `o || fallback` for an optional string. */
  function OrDefault(o: Option<string>, fallback: string): (r: string)
    ensures Truthy(o) ==> r == o.value
    ensures !Truthy(o) ==> r == fallback
  {
    if Truthy(o) then o.value else fallback
  }

  /** A field that may be left out of an update: a supplied value replaces
      `current`, an absent one keeps it. */
  function Override<T>(o: Option<T>, current: T): (r: T)
    ensures o.None? ==> r == current
    ensures o.Some? ==> r == o.value
  {
    match o
    case None => current
    case Some(v) => v
  }

  /** `after` is what an update carrying `o` leaves of `before`. */
  predicate Replaced<T(==)>(o: Option<T>, before: T, after: T) {
    match o
    case None => after == before
    case Some(v) => after == v
  }

  predicate StartsWith(s: string, prefix: string) {
    |prefix| <= |s| && s[..|prefix|] == prefix
  }

  predicate EndsWith(s: string, suffix: string) {
    |suffix| <= |s| && s[|s| - |suffix|..] == suffix
  }

  lemma StartsWithConcat(prefix: string, rest: string)
    ensures StartsWith(prefix + rest, prefix)
    ensures (prefix + rest)[|prefix|..] == rest
  {
    assert (prefix + rest)[..|prefix|] == prefix;
  }

  // ----- decimal rendering (`n.toString()`) -----

  function DigitChar(d: nat): (c: char)
    requires d < 10
    ensures '0' <= c <= '9'
  {
    "0123456789"[d]
  }

  /** The decimal text of a natural number, without leading zeros. */
  function NatToString(n: nat): (r: string)
    ensures |r| >= 1
    ensures forall i :: 0 <= i < |r| ==> '0' <= r[i] <= '9'
  {
    if n < 10 then [DigitChar(n)] else NatToString(n / 10) + [DigitChar(n % 10)]
  }

  lemma DigitCharInjective(a: nat, b: nat)
    requires a < 10 && b < 10
    requires DigitChar(a) == DigitChar(b)
    ensures a == b
  {
  }

  /** Distinct numbers have distinct decimal texts. */
  lemma {:induction false} NatToStringInjective(a: nat, b: nat)
    requires NatToString(a) == NatToString(b)
    ensures a == b
    decreases a
  {
    var ra, rb := NatToString(a), NatToString(b);
    if a < 10 && b < 10 {
      DigitCharInjective(a, b);
    } else if a >= 10 && b >= 10 {
      var pa, pb := NatToString(a / 10), NatToString(b / 10);
      assert ra == pa + [DigitChar(a % 10)];
      assert rb == pb + [DigitChar(b % 10)];
      assert ra[|ra| - 1] == DigitChar(a % 10);
      assert rb[|rb| - 1] == DigitChar(b % 10);
      DigitCharInjective(a % 10, b % 10);
      assert pa == ra[..|ra| - 1];
      assert pb == rb[..|rb| - 1];
      NatToStringInjective(a / 10, b / 10);
    }
  }

  // ----- `s.split(sep)` -----

  /** JavaScript `s.split(sep)` for a one-character separator: the pieces
      between separators, in order, always at least one (possibly empty). */
  function Split(s: string, sep: char): (r: seq<string>)
    ensures |r| >= 1
    decreases |s|
  {
    if s == [] then [[]]
    else if s[0] == sep then [[]] + Split(s[1..], sep)
    else
      var rest := Split(s[1..], sep);
      [[s[0]] + rest[0]] + rest[1..]
  }

  /** A text without separators splits into itself alone. */
  lemma {:induction false} SplitNoSeparator(s: string, sep: char)
    requires sep !in s
    ensures Split(s, sep) == [s]
    decreases |s|
  {
    if s != [] {
      assert sep !in s[1..];
      SplitNoSeparator(s[1..], sep);
      assert [s[0]] + s[1..] == s;
    }
  }

  /** A separator cuts the text: the piece before it comes first, then the
      pieces of what follows. */
  lemma {:induction false} SplitAtSeparator(a: string, b: string, sep: char)
    requires sep !in a
    ensures Split(a + [sep] + b, sep) == [a] + Split(b, sep)
    decreases |a|
  {
    var s := a + [sep] + b;
    if a == [] {
      assert s[0] == sep && s[1..] == b;
    } else {
      assert s[0] == a[0];
      assert s[1..] == a[1..] + [sep] + b;
      assert sep !in a[1..];
      SplitAtSeparator(a[1..], b, sep);
      assert [a[0]] + a[1..] == a;
    }
  }

  // ----- filtering and searching -----

  /** The elements of `s` that satisfy `p`, in their original order
      (a query's `WHERE` clause). */
  function Filter<T>(s: seq<T>, p: T -> bool): (r: seq<T>)
    ensures |r| <= |s|
    ensures forall i :: 0 <= i < |r| ==> r[i] in s && p(r[i])
    ensures forall i :: 0 <= i < |s| && p(s[i]) ==> s[i] in r
  {
    if s == [] then []
    else if p(s[0]) then [s[0]] + Filter(s[1..], p)
    else Filter(s[1..], p)
  }

  /** Filtering twice by the same condition is filtering once. */
  lemma {:induction false} FilterIdempotent<T>(s: seq<T>, p: T -> bool)
    ensures Filter(Filter(s, p), p) == Filter(s, p)
  {
    if s != [] {
      FilterIdempotent(s[1..], p);
      if p(s[0]) {
        var r := [s[0]] + Filter(s[1..], p);
        assert r[0] == s[0] && r[1..] == Filter(s[1..], p);
      }
    }
  }

  /** A filter that matches nothing yields nothing. */
  lemma FilterNone<T>(s: seq<T>, p: T -> bool)
    requires forall i :: 0 <= i < |s| ==> !p(s[i])
    ensures Filter(s, p) == []
  {
  }

  /** Filtering distributes over appending one element. */
  lemma {:induction false} FilterAppend<T>(s: seq<T>, x: T, p: T -> bool)
    ensures Filter(s + [x], p) == Filter(s, p) + (if p(x) then [x] else [])
  {
    if s == [] {
      assert [x][1..] == [];
    } else {
      assert (s + [x])[0] == s[0];
      assert (s + [x])[1..] == s[1..] + [x];
      FilterAppend(s[1..], x, p);
    }
  }

  /** PostgREST's `.single()`: a row when exactly one row matched, an error otherwise. */
  function Single<T>(rows: seq<T>): (r: Option<T>)
    ensures r.Some? <==> |rows| == 1
    ensures r.Some? ==> r.value in rows
  {
    if |rows| == 1 then Some(rows[0]) else None
  }

  /** Index of the first element satisfying `p` (`Array.prototype.findIndex`,
      with `None` for -1; `find` is the element at that index). */
  function FirstIndex<T>(s: seq<T>, p: T -> bool): (r: Option<nat>)
    ensures r.Some? ==> r.value < |s| && p(s[r.value])
    ensures r.Some? ==> forall j :: 0 <= j < r.value ==> !p(s[j])
    ensures r.None? ==> forall j :: 0 <= j < |s| ==> !p(s[j])
  {
    if s == [] then None
    else if p(s[0]) then Some(0)
    else match FirstIndex(s[1..], p)
      case None => None
      case Some(k) => Some(k + 1)
  }
}

=== FILE: db.dfy ===
/** The hosted store behind the serverless handlers, as three tables:
    `admin_users`, `user_sessions` and the singleton `site_content`; with the
    queries both handlers share: the live-session lookup joined to its
    account, the camelCase projections of rows, and ordering by creation. */
module Db {
  import opened Common
  import opened Types

  /** A row of `admin_users`. */
  datatype AdminRow = AdminRow(
    id: string,
    username: string,
    passwordHash: string,
    role: Role,
    isActive: bool,
    lastLogin: Option<Millis>,
    createdAt: Millis,
    updatedAt: Millis)

  /** A row of `user_sessions`. */
  datatype SessionRow = SessionRow(userId: string, token: string, expiresAt: Millis, createdAt: Millis)

  /** A row of `site_content`, with the pricing sub-record flattened into
      five columns. */
  datatype ContentRow = ContentRow(
    id: string,
    title: string,
    description: string,
    gkk99Link: string,
    gkk777Link: string,
    viberLink: string,
    pricingSlots: string,
    pricingFreeSpin: string,
    pricingWinRate: string,
    pricingGkk99Bonus: string,
    pricingGkk777Bonus: string,
    updatedAt: Millis,
    updatedBy: string)

  datatype Database = Database(
    adminUsers: seq<AdminRow>,
    userSessions: seq<SessionRow>,
    siteContent: seq<ContentRow>)

  /** Schema constraints the handlers rely on: `id` is the primary key and
      `username` is unique in `admin_users`, and every session refers to an
      existing account. */
  ghost predicate WellFormed(db: Database) {
    && (forall i, j :: 0 <= i < j < |db.adminUsers| ==> db.adminUsers[i].id != db.adminUsers[j].id)
    && (forall i, j :: 0 <= i < j < |db.adminUsers| ==> db.adminUsers[i].username != db.adminUsers[j].username)
    && (forall s :: s in db.userSessions ==> exists i :: 0 <= i < |db.adminUsers| && db.adminUsers[i].id == s.userId)
  }

  /** The protected-account invariant over the table. */
  ghost predicate MainAdminsActive(rows: seq<AdminRow>) {
    forall i :: 0 <= i < |rows| && rows[i].role == MainAdmin ==> rows[i].isActive
  }

  /** The account as the handlers send it: camelCase, and never with the
      password hash or the row's own update time. */
  function ToUser(row: AdminRow): (u: User)
    ensures u.id == row.id && u.username == row.username && u.role == row.role
    ensures u.isActive == row.isActive && u.lastLogin == row.lastLogin && u.createdAt == row.createdAt
  {
    User(row.id, row.username, row.role, row.isActive, row.lastLogin, row.createdAt)
  }

  /** The embedded `admin_users (*)` of a session: the account with that id. */
  function RowById(rows: seq<AdminRow>, id: string): (r: Option<AdminRow>)
    ensures r.Some? ==> r.value in rows && r.value.id == id
    ensures r.None? ==> forall i :: 0 <= i < |rows| ==> rows[i].id != id
  {
    match FirstIndex(rows, (a: AdminRow) => a.id == id)
    case None => None
    case Some(k) => Some(rows[k])
  }

  lemma RowByIdUnique(rows: seq<AdminRow>, k: nat)
    requires k < |rows|
    requires forall i, j :: 0 <= i < j < |rows| ==> rows[i].id != rows[j].id
    ensures RowById(rows, rows[k].id) == Some(rows[k])
  {
  }

  // ----- sessions -----

  /** The sessions matching `.eq('token', token).gt('expires_at', now)`. */
  function LiveSessions(sessions: seq<SessionRow>, token: string, now: Millis): (r: seq<SessionRow>)
    ensures forall i :: 0 <= i < |r| ==> r[i] in sessions && r[i].token == token && now < r[i].expiresAt
  {
    Filter(sessions, (s: SessionRow) => s.token == token && s.expiresAt > now)
  }

  datatype Lookup = NoSession | Found(session: SessionRow, user: Option<AdminRow>)

  /** The session lookup both handlers run before anything else: exactly one
      live session must carry the token; its account comes along (absent only
      if the reference is dangling). The account's active flag is not read. */
  function LookupSession(db: Database, token: string, now: Millis): (r: Lookup)
    ensures r.Found? <==> |LiveSessions(db.userSessions, token, now)| == 1
    ensures r.Found? ==>
      && r.session in db.userSessions && r.session.token == token && now < r.session.expiresAt
      && r.user == RowById(db.adminUsers, r.session.userId)
  {
    match Single(LiveSessions(db.userSessions, token, now))
    case None => NoSession
    case Some(s) => Found(s, RowById(db.adminUsers, s.userId))
  }

  /** Under the foreign key, a found session always brings its account. */
  lemma LookupFindsAccount(db: Database, token: string, now: Millis)
    requires WellFormed(db)
    requires LookupSession(db, token, now).Found?
    ensures LookupSession(db, token, now).user.Some?
  {
    var s := LookupSession(db, token, now).session;
    var i :| 0 <= i < |db.adminUsers| && db.adminUsers[i].id == s.userId;
  }

  // ----- content row <-> ContentData -----

  /** The GET/PUT reply formatting: columns back to the nested record. */
  function FromRow(r: ContentRow): Content {
    Content(r.id, r.title, r.description, r.gkk99Link, r.gkk777Link, r.viberLink,
      Pricing(r.pricingSlots, r.pricingFreeSpin, r.pricingWinRate, r.pricingGkk99Bonus, r.pricingGkk777Bonus),
      r.updatedAt, r.updatedBy)
  }

  /** A whole record laid out as columns. */
  function ToRow(c: Content): ContentRow {
    ContentRow(c.id, c.title, c.description, c.gkk99Link, c.gkk777Link, c.viberLink,
      c.pricing.slots, c.pricing.freeSpin, c.pricing.winRate, c.pricing.gkk99Bonus, c.pricing.gkk777Bonus,
      c.updatedAt, c.updatedBy)
  }

  /** Columns and nested record are two spellings of the same data. */
  lemma ContentMappingRoundTrip(c: Content, r: ContentRow)
    ensures FromRow(ToRow(c)) == c
    ensures ToRow(FromRow(r)) == r
  {
  }

  /** The column update the PUT handler issues: one optional value per
      editable column (an absent field is dropped when the update is sent),
      and the editor's name, always. */
  datatype ContentUpdate = ContentUpdate(
    title: Option<string>,
    description: Option<string>,
    gkk99Link: Option<string>,
    gkk777Link: Option<string>,
    viberLink: Option<string>,
    pricingSlots: Option<string>,
    pricingFreeSpin: Option<string>,
    pricingWinRate: Option<string>,
    pricingGkk99Bonus: Option<string>,
    pricingGkk777Bonus: Option<string>,
    updatedBy: string)

  /** `updates.pricing?.<field>`: absent when the pricing object is. */
  function PricingField(p: Option<PricingEdit>, field: PricingEdit -> Option<string>): (v: Option<string>)
    ensures p.None? ==> v.None?
    ensures p.Some? ==> v == field(p.value)
  {
    match p
    case None => None
    case Some(pe) => field(pe)
  }

  /** camelCase request fields to snake_case columns, each pricing field to
      its own column; the editor is always written. */
  function UpdateFor(e: ContentEdit, editor: string): (u: ContentUpdate)
    ensures u.updatedBy == editor
    ensures u.title == e.title && u.description == e.description
    ensures u.gkk99Link == e.gkk99Link && u.gkk777Link == e.gkk777Link && u.viberLink == e.viberLink
    ensures e.pricing.None? ==>
      u.pricingSlots.None? && u.pricingFreeSpin.None? && u.pricingWinRate.None?
      && u.pricingGkk99Bonus.None? && u.pricingGkk777Bonus.None?
    ensures e.pricing.Some? ==>
      && u.pricingSlots == e.pricing.value.slots
      && u.pricingFreeSpin == e.pricing.value.freeSpin
      && u.pricingWinRate == e.pricing.value.winRate
      && u.pricingGkk99Bonus == e.pricing.value.gkk99Bonus
      && u.pricingGkk777Bonus == e.pricing.value.gkk777Bonus
  {
    ContentUpdate(e.title, e.description, e.gkk99Link, e.gkk777Link, e.viberLink,
      PricingField(e.pricing, (pe: PricingEdit) => pe.slots),
      PricingField(e.pricing, (pe: PricingEdit) => pe.freeSpin),
      PricingField(e.pricing, (pe: PricingEdit) => pe.winRate),
      PricingField(e.pricing, (pe: PricingEdit) => pe.gkk99Bonus),
      PricingField(e.pricing, (pe: PricingEdit) => pe.gkk777Bonus),
      editor)
  }

  /** The row after the update: each supplied column takes its value, each
      absent one keeps the stored value; `updated_at` is not touched. */
  function ApplyUpdate(r: ContentRow, u: ContentUpdate): (r': ContentRow)
    ensures r'.id == r.id && r'.updatedAt == r.updatedAt && r'.updatedBy == u.updatedBy
    ensures Replaced(u.title, r.title, r'.title) && Replaced(u.description, r.description, r'.description)
    ensures Replaced(u.gkk99Link, r.gkk99Link, r'.gkk99Link) && Replaced(u.gkk777Link, r.gkk777Link, r'.gkk777Link)
    ensures Replaced(u.viberLink, r.viberLink, r'.viberLink)
    ensures Replaced(u.pricingSlots, r.pricingSlots, r'.pricingSlots)
    ensures Replaced(u.pricingFreeSpin, r.pricingFreeSpin, r'.pricingFreeSpin)
    ensures Replaced(u.pricingWinRate, r.pricingWinRate, r'.pricingWinRate)
    ensures Replaced(u.pricingGkk99Bonus, r.pricingGkk99Bonus, r'.pricingGkk99Bonus)
    ensures Replaced(u.pricingGkk777Bonus, r.pricingGkk777Bonus, r'.pricingGkk777Bonus)
  {
    ContentRow(r.id,
      Override(u.title, r.title), Override(u.description, r.description),
      Override(u.gkk99Link, r.gkk99Link), Override(u.gkk777Link, r.gkk777Link),
      Override(u.viberLink, r.viberLink),
      Override(u.pricingSlots, r.pricingSlots), Override(u.pricingFreeSpin, r.pricingFreeSpin),
      Override(u.pricingWinRate, r.pricingWinRate), Override(u.pricingGkk99Bonus, r.pricingGkk99Bonus),
      Override(u.pricingGkk777Bonus, r.pricingGkk777Bonus),
      r.updatedAt, u.updatedBy)
  }

  // ----- ordering by created_at -----

  ghost predicate SortedByCreatedAt(rows: seq<AdminRow>) {
    forall i, j :: 0 <= i < j < |rows| ==> rows[i].createdAt <= rows[j].createdAt
  }

  /** Putting a row no later than all others in front keeps the order. */
  lemma SortedCons(a: AdminRow, rows: seq<AdminRow>)
    requires SortedByCreatedAt(rows)
    requires forall i :: 0 <= i < |rows| ==> a.createdAt <= rows[i].createdAt
    ensures SortedByCreatedAt([a] + rows)
  {
    var r := [a] + rows;
    forall i, j | 0 <= i < j < |r|
      ensures r[i].createdAt <= r[j].createdAt
    {
      if i > 0 {
        assert r[i] == rows[i - 1] && r[j] == rows[j - 1];
      } else {
        assert r[j] == rows[j - 1];
      }
    }
  }

  /** A row no later than `x` and than every row of `rest` is no later than
      any row of a sequence made of `x` and rows of `rest`. */
  lemma LowerBound(head: AdminRow, x: AdminRow, rest: seq<AdminRow>, r: seq<AdminRow>)
    requires head.createdAt <= x.createdAt
    requires forall j :: 0 <= j < |rest| ==> head.createdAt <= rest[j].createdAt
    requires forall i :: 0 <= i < |r| ==> r[i] == x || r[i] in rest
    ensures forall i :: 0 <= i < |r| ==> head.createdAt <= r[i].createdAt
  {
    forall i | 0 <= i < |r|
      ensures head.createdAt <= r[i].createdAt
    {
      if r[i] != x {
        var j :| 0 <= j < |rest| && rest[j] == r[i];
      }
    }
  }

  function InsertByCreatedAt(x: AdminRow, rows: seq<AdminRow>): (r: seq<AdminRow>)
    requires SortedByCreatedAt(rows)
    ensures SortedByCreatedAt(r)
    ensures multiset(r) == multiset(rows) + multiset{x}
    ensures forall i :: 0 <= i < |r| ==> r[i] == x || r[i] in rows
  {
    if rows == [] then [x]
    else if x.createdAt <= rows[0].createdAt then
      SortedCons(x, rows);
      [x] + rows
    else
      var head, rest := rows[0], rows[1..];
      assert rows == [head] + rest;
      assert forall j :: 0 <= j < |rest| ==> rest[j] == rows[j + 1];
      var tail := InsertByCreatedAt(x, rest);
      LowerBound(head, x, rest, tail);
      SortedCons(head, tail);
      [head] + tail
  }

  /** `.order('created_at', { ascending: true })`: the same rows, ascending
      by creation time; the order among rows created at the same instant is
      not specified. */
  function SortByCreatedAt(rows: seq<AdminRow>): (r: seq<AdminRow>)
    ensures SortedByCreatedAt(r)
    ensures multiset(r) == multiset(rows)
  {
    if rows == [] then []
    else
      assert rows == [rows[0]] + rows[1..];
      InsertByCreatedAt(rows[0], SortByCreatedAt(rows[1..]))
  }
}

=== FILE: http.dfy ===
/** What the two serverless handlers see of an HTTP exchange: the method,
    the path, the `Authorization` header and the fields of the JSON body they
    read; and what they answer: a status code and the JSON envelope. */
module Http {
  import opened Common
  import opened Types

  datatype Method = GET | POST | PUT | PATCH | DELETE | OPTIONS

  /** The request body. `Json` carries every field a handler destructures from
      the parsed object; `NoJson` is a body that does not parse. */
  datatype Body =
    | NoJson
    | Json(username: Option<string>, password: Option<string>, isActive: bool, updates: ContentEdit)

  datatype Request = Request(verb: Method, path: string, authorization: Option<string>, body: Body)

  /** The JSON envelope of a reply. */
  datatype Payload =
    | Preflight                                    // the CORS pre-flight "ok"
    | Error(error: string)                         // {success: false, error}
    | Refusal(message: string)                     // {success: false, message}
    | LoggedIn(user: User, token: string, message: string)
    | Account(user: User)
    | Accounts(users: seq<User>)
    | SiteContent(content: Content)
    | Done                                         // {success: true}

  datatype Response = Response(status: nat, payload: Payload)

  const MsgInternal := "Internal server error"
  const MsgNotFound := "Not found"

  const BEARER := "Bearer "

  /** The token of an `Authorization` header: present only when the header
      starts with `Bearer `, and then the text from index 7 on. */
  function BearerToken(header: Option<string>): (t: Option<string>)
    ensures t.Some? <==> header.Some? && StartsWith(header.value, BEARER)
    ensures t.Some? ==> header.value == BEARER + t.value
  {
    if header.Some? && StartsWith(header.value, BEARER) then
      assert header.value == header.value[..7] + header.value[7..];
      Some(header.value[7..])
    else None
  }

  /** The header the client builds from a token (`Bearer ${token}`) yields
      that token back. */
  lemma BearerRoundTrip(token: string)
    ensures BearerToken(Some(BEARER + token)) == Some(token)
  {
    StartsWithConcat(BEARER, token);
  }
}

=== FILE: mock_service.dfy ===
/** The in-memory mock of the admin API that the browser client talks to:
    a list of accounts, a password table, the singleton content record, the
    service's token slot and the two browser storage keys it writes
    (`admin_token`, `admin_user`). Each operation is one atomic step
    `(state, inputs) -> (response, state')`; the simulated network delay is
    not modelled. */
module MockService {
  import opened Common
  import opened Types

  const TOKEN_PREFIX := "mock_token_"

  const MsgUserNotFound := "အသုံးပြုသူအမည် မတွေ့ရှိပါ"
  const MsgAccountDisabled := "သင့်အကောင့်ကို ပိတ်ထားပါသည်"
  const MsgWrongPassword := "စကားဝှက် မှားယွင်းနေပါသည်"
  const MsgLoginSucceeded := "အောင်မြင်စွာ ဝင်ရောက်ပြီးပါပြီ"

  /** The browser's persisted key-value store, restricted to the two keys the
      admin panel uses. The stored user is kept as the record it encodes. */
  datatype Storage = Storage(adminToken: Option<string>, adminUser: Option<User>)

  /** `passwords` stands for the credential table; the model compares against
      it and never fixes its contents. */
  datatype State = State(
    users: seq<User>,
    passwords: map<string, string>,
    content: Content,
    token: Option<string>,
    storage: Storage)

  // ----- seed data -----

  const SeedContent := Content(
    "1",
    "GKK99 - မြန်မာ AI ချတ်ဘော့ဝန်ဆောင်မှု",
    "၂၄ နာရီ အချိန်မရွေး သင့်အတွက် အဖြေများ ပေးနိုင်သော ဉာဏ်ရည်တုံ့ပြန်မှု စနစ်",
    "https://www.gkk99.com/",
    "https://7777gkkk.info/",
    "viber://pa?chatURI=chatbotnhantri",
    Pricing("20 Ks", "1000 Ks", "96.5%", "30,000 Ks", "30,000 Ks"),
    0,
    "admin")

  /** The module state when the service is constructed at instant `startedAt`:
      the three seeded accounts, the seeded content, and the token slot read
      back from storage. */
  function Initial(passwords: map<string, string>, storage: Storage, startedAt: Millis): (s: State)
    ensures |s.users| == 3 && s.token == storage.adminToken
    ensures s.users[0].role == MainAdmin && s.users[1].role == SubAdmin && s.users[2].role == SubAdmin
  {
    State(
      [ User("1", "admin", MainAdmin, true, Some(startedAt), 1704067200000),
        User("2", "subadmin1", SubAdmin, true, Some(1720089000000), 1705276800000),
        User("3", "subadmin2", SubAdmin, true, Some(1720021500000), 1706745600000) ],
      passwords,
      SeedContent.(updatedAt := startedAt),
      storage.adminToken,
      storage)
  }

  // ----- account invariants -----

  /** Account ids are "1", "2", ... in list order, as the seed data and
      `createSubAdmin`'s `length + 1` numbering produce them. */
  ghost predicate SequentialIds(users: seq<User>) {
    forall i :: 0 <= i < |users| ==> users[i].id == NatToString(i + 1)
  }

  ghost predicate UniqueIds(users: seq<User>) {
    forall i, j :: 0 <= i < j < |users| ==> users[i].id != users[j].id
  }

  /** The protected-account invariant: every `main_admin` account is active. */
  ghost predicate MainAdminsActive(users: seq<User>) {
    forall i :: 0 <= i < |users| && users[i].role == MainAdmin ==> users[i].isActive
  }

  lemma SequentialIdsUnique(users: seq<User>)
    requires SequentialIds(users)
    ensures UniqueIds(users)
  {
    forall i, j | 0 <= i < j < |users|
      ensures users[i].id != users[j].id
    {
      if users[i].id == users[j].id {
        NatToStringInjective(i + 1, j + 1);
      }
    }
  }

  lemma InitialWellFormed(passwords: map<string, string>, storage: Storage, startedAt: Millis)
    ensures SequentialIds(Initial(passwords, storage, startedAt).users)
    ensures MainAdminsActive(Initial(passwords, storage, startedAt).users)
  {
    var users := Initial(passwords, storage, startedAt).users;
    assert NatToString(1) == "1" && NatToString(2) == "2" && NatToString(3) == "3";
  }

  // ----- lookups -----

  function IndexOfUsername(users: seq<User>, username: string): (k: Option<nat>)
    ensures k.Some? ==> k.value < |users| && users[k.value].username == username
    ensures k.Some? ==> forall j :: 0 <= j < k.value ==> users[j].username != username
    ensures k.None? ==> forall j :: 0 <= j < |users| ==> users[j].username != username
  {
    FirstIndex(users, (u: User) => u.username == username)
  }

  function IndexOfId(users: seq<User>, id: string): (k: Option<nat>)
    ensures k.Some? ==> k.value < |users| && users[k.value].id == id
    ensures k.None? ==> forall j :: 0 <= j < |users| ==> users[j].id != id
  {
    FirstIndex(users, (u: User) => u.id == id)
  }

  /** With unique ids, the account found by id is the one carrying that id. */
  lemma IndexOfIdUnique(users: seq<User>, k: nat)
    requires UniqueIds(users) && k < |users|
    ensures IndexOfId(users, users[k].id) == Some(k)
  {
  }

  // ----- token slot -----

  /** `setToken`: the in-memory slot takes the new value; the persisted key is
      written for a non-empty token and removed otherwise. */
  function SetToken(s: State, token: Option<string>): (s': State)
    ensures s'.token == token
    ensures Truthy(token) ==> s'.storage.adminToken == token
    ensures !Truthy(token) ==> s'.storage.adminToken.None?
    ensures s'.users == s.users && s'.content == s.content && s'.passwords == s.passwords
    ensures s'.storage.adminUser == s.storage.adminUser
  {
    s.(token := token,
       storage := s.storage.(adminToken := if Truthy(token) then token else None))
  }

  function MockToken(id: string, now: Millis): string {
    TOKEN_PREFIX + id + "_" + NatToString(now)
  }

  // ----- auth -----

  function Rejected(message: string): AuthResponse {
    AuthResponse(false, None, None, Some(message))
  }

  /** `login`: the account is looked up by username, then its active flag is
      checked, then the password; only a login that passes all three touches
      the state. */
  function Login(s: State, username: string, password: string, now: Millis): (out: (AuthResponse, State))
    ensures var k := IndexOfUsername(s.users, username);
      && (k.None? ==> out == (Rejected(MsgUserNotFound), s))
      && (k.Some? && !s.users[k.value].isActive ==> out == (Rejected(MsgAccountDisabled), s))
      && ((k.Some? && s.users[k.value].isActive && !PasswordMatches(s.passwords, username, password))
          ==> out == (Rejected(MsgWrongPassword), s))
      && (out.0.success <==>
            k.Some? && s.users[k.value].isActive && PasswordMatches(s.passwords, username, password))
    ensures !out.0.success ==> out.1 == s && out.0.token.None? && out.0.user.None?
    ensures out.0.success ==>
      var k := IndexOfUsername(s.users, username).value;
      var user := s.users[k].(lastLogin := Some(now));
      && out.1.users == s.users[k := user]
      && out.0.user == Some(user)
      && out.0.token == Some(MockToken(user.id, now))
      && out.1.token == out.0.token && out.1.storage == Storage(out.0.token, Some(user))
      && out.1.content == s.content && out.1.passwords == s.passwords
  {
    match IndexOfUsername(s.users, username)
    case None => (Rejected(MsgUserNotFound), s)
    case Some(k) =>
      var user := s.users[k];
      if !user.isActive then (Rejected(MsgAccountDisabled), s)
      else if !PasswordMatches(s.passwords, username, password) then (Rejected(MsgWrongPassword), s)
      else
        var user' := user.(lastLogin := Some(now));
        var token := MockToken(user'.id, now);
        var s1 := SetToken(s.(users := s.users[k := user']), Some(token));
        (AuthResponse(true, Some(user'), Some(token), Some(MsgLoginSucceeded)),
         s1.(storage := s1.storage.(adminUser := Some(user'))))
  }

  /** `logout`: always ends with no token in memory and nothing stored. */
  function Logout(s: State): (s': State)
    ensures s'.token.None? && s'.storage == Storage(None, None)
    ensures s'.users == s.users && s'.content == s.content && s'.passwords == s.passwords
  {
    var s1 := SetToken(s, None);
    s1.(storage := s1.storage.(adminUser := None))
  }

  /** `verifyToken`: the token must carry the mock prefix, a user must be
      stored, and the stored user's id must name an active account; the reply
      is that account as it is now, not the stored copy. */
  function VerifyToken(s: State): (r: ApiResponse<User>)
    ensures r.success <==>
      && Truthy(s.token) && StartsWith(s.token.value, TOKEN_PREFIX)
      && s.storage.adminUser.Some?
      && var k := IndexOfId(s.users, s.storage.adminUser.value.id);
         k.Some? && s.users[k.value].isActive
    ensures r.success ==>
      r.data == Some(s.users[IndexOfId(s.users, s.storage.adminUser.value.id).value])
    ensures !r.success ==> r.data.None? && r.error.Some?
  {
    if !Truthy(s.token) || !StartsWith(s.token.value, TOKEN_PREFIX) then Failed("Invalid token")
    else if s.storage.adminUser.None? then Failed("User not found")
    else match IndexOfId(s.users, s.storage.adminUser.value.id)
      case None => Failed("User inactive or not found")
      case Some(k) =>
        if !s.users[k].isActive then Failed("User inactive or not found")
        else Succeeded(s.users[k])
  }

  // ----- users -----

  /** `getUsers`: any token at all unlocks the full list; the mock makes no
      role check. */
  function GetUsers(s: State): (r: ApiResponse<seq<User>>)
    ensures r.success <==> Truthy(s.token)
    ensures r.success ==> r.data == Some(s.users)
    ensures !r.success ==> r.error == Some("Unauthorized")
  {
    if !Truthy(s.token) then Failed("Unauthorized") else Succeeded(s.users)
  }

  /** `updateUserStatus`: an unknown id and the deactivation of a `main_admin`
      both fail without a change; otherwise exactly the target's active flag
      is set. */
  function UpdateUserStatus(s: State, userId: string, isActive: bool): (out: (ApiResponse<User>, State))
    ensures var k := IndexOfId(s.users, userId);
      && (k.None? ==> out == (Failed("User not found"), s))
      && ((k.Some? && s.users[k.value].role == MainAdmin && !isActive)
          ==> out == (Failed("Cannot deactivate main admin"), s))
      && ((k.Some? && !(s.users[k.value].role == MainAdmin && !isActive)) ==> out.0.success)
    ensures out.0.success ==>
      var k := IndexOfId(s.users, userId).value;
      && out.1 == s.(users := s.users[k := s.users[k].(isActive := isActive)])
      && out.0.data == Some(out.1.users[k])
    ensures !out.0.success ==> out.1 == s
  {
    match IndexOfId(s.users, userId)
    case None => (Failed("User not found"), s)
    case Some(k) =>
      if s.users[k].role == MainAdmin && !isActive then (Failed("Cannot deactivate main admin"), s)
      else
        var users := s.users[k := s.users[k].(isActive := isActive)];
        (Succeeded(users[k]), s.(users := users))
  }

  /** `createSubAdmin`: appends an active `sub_admin` whose id is the decimal
      text of the new list length and who has never logged in. */
  function CreateSubAdmin(s: State, username: Option<string>, now: Millis): (out: (ApiResponse<User>, State))
    ensures |out.1.users| == |s.users| + 1
    ensures out.1.users[..|s.users|] == s.users
    ensures var u := out.1.users[|s.users|];
      && u == User(NatToString(|s.users| + 1), OrDefault(username, ""), SubAdmin, true, None, now)
      && out.0 == Succeeded(u)
    ensures out.1.token == s.token && out.1.storage == s.storage && out.1.content == s.content
  {
    var u := User(NatToString(|s.users| + 1), OrDefault(username, ""), SubAdmin, true, None, now);
    (Succeeded(u), s.(users := s.users + [u]))
  }

  // ----- content -----

  function GetContent(s: State): (r: ApiResponse<Content>)
    ensures r.success && r.data == Some(s.content)
  {
    Succeeded(s.content)
  }

  /** `Object.assign(content, patch, {updatedAt: now})`: a shallow merge in
      which every field the patch supplies wins, `pricing` included as a
      whole object, and every field it leaves out is kept. */
  function Merge(c: Content, p: ContentPatch, now: Millis): (r: Content)
    ensures r.updatedAt == now
    ensures Replaced(p.id, c.id, r.id) && Replaced(p.title, c.title, r.title)
    ensures Replaced(p.description, c.description, r.description)
    ensures Replaced(p.gkk99Link, c.gkk99Link, r.gkk99Link) && Replaced(p.gkk777Link, c.gkk777Link, r.gkk777Link)
    ensures Replaced(p.viberLink, c.viberLink, r.viberLink)
    ensures Replaced(p.pricing, c.pricing, r.pricing)
    ensures Replaced(p.updatedBy, c.updatedBy, r.updatedBy)
  {
    Content(
      Override(p.id, c.id),
      Override(p.title, c.title),
      Override(p.description, c.description),
      Override(p.gkk99Link, c.gkk99Link),
      Override(p.gkk777Link, c.gkk777Link),
      Override(p.viberLink, c.viberLink),
      Override(p.pricing, c.pricing),
      now,
      Override(p.updatedBy, c.updatedBy))
  }

  function UpdateContent(s: State, p: ContentPatch, now: Millis): (out: (ApiResponse<Content>, State))
    ensures out.1 == s.(content := Merge(s.content, p, now))
    ensures out.0 == Succeeded(out.1.content)
  {
    var c := Merge(s.content, p, now);
    (Succeeded(c), s.(content := c))
  }

  // ----- properties across operations -----

  /** A successful login is recognised by `verifyToken` straight away, which
      answers with the account that logged in. */
  lemma LoginThenVerify(s: State, username: string, password: string, now: Millis)
    requires UniqueIds(s.users)
    requires Login(s, username, password, now).0.success
    ensures var (r, s') := Login(s, username, password, now);
      VerifyToken(s') == Succeeded(r.user.value)
  {
    var (r, s') := Login(s, username, password, now);
    var k := IndexOfUsername(s.users, username).value;
    var user := s'.users[k];
    assert MockToken(user.id, now) == TOKEN_PREFIX + (user.id + "_" + NatToString(now));
    StartsWithConcat(TOKEN_PREFIX, user.id + "_" + NatToString(now));
    assert forall i :: 0 <= i < |s'.users| ==> s'.users[i].id == s.users[i].id;
    IndexOfIdUnique(s'.users, k);
  }

  /** After `logout` nothing verifies, and a second `logout` changes nothing. */
  lemma LogoutEndsSession(s: State)
    ensures !VerifyToken(Logout(s)).success
    ensures !GetUsers(Logout(s)).success
    ensures Logout(Logout(s)) == Logout(s)
  {
  }

  /** A username without an entry in the credential table can never log in. */
  lemma NoCredentialNoLogin(s: State, username: string, password: string, now: Millis)
    requires username !in s.passwords
    ensures !Login(s, username, password, now).0.success
    ensures Login(s, username, password, now).1 == s
  {
  }

  /** Every entry of the credential table names an existing account, as the
      seeded table does. */
  ghost predicate CredentialsNameAccounts(s: State) {
    forall u :: u in s.passwords ==> exists i :: 0 <= i < |s.users| && s.users[i].username == u
  }

  /** The seeded credential table has entries for the seed accounts only. */
  lemma InitialCredentialsNameAccounts(passwords: map<string, string>, storage: Storage, startedAt: Millis)
    requires passwords.Keys <= {"admin", "subadmin1", "subadmin2"}
    ensures CredentialsNameAccounts(Initial(passwords, storage, startedAt))
  {
    var s := Initial(passwords, storage, startedAt);
    forall u | u in s.passwords
      ensures exists i :: 0 <= i < |s.users| && s.users[i].username == u
    {
      if u == "admin" {
        assert s.users[0].username == u;
      } else if u == "subadmin1" {
        assert s.users[1].username == u;
      } else {
        assert s.users[2].username == u;
      }
    }
  }

  /** Login, status updates and creation never remove a username. */
  lemma StepsKeepCredentialsNameAccounts(s: State, username: string, password: string, userId: string,
                                         isActive: bool, newName: Option<string>, now: Millis)
    requires CredentialsNameAccounts(s)
    ensures CredentialsNameAccounts(Login(s, username, password, now).1)
    ensures CredentialsNameAccounts(UpdateUserStatus(s, userId, isActive).1)
    ensures CredentialsNameAccounts(CreateSubAdmin(s, newName, now).1)
  {
    var s1 := Login(s, username, password, now).1;
    var s2 := UpdateUserStatus(s, userId, isActive).1;
    var s3 := CreateSubAdmin(s, newName, now).1;
    forall u | u in s.passwords
      ensures exists i :: 0 <= i < |s1.users| && s1.users[i].username == u
      ensures exists i :: 0 <= i < |s2.users| && s2.users[i].username == u
      ensures exists i :: 0 <= i < |s3.users| && s3.users[i].username == u
    {
      var i :| 0 <= i < |s.users| && s.users[i].username == u;
      assert s1.users[i].username == u && s2.users[i].username == u;
      assert s3.users[i] == s.users[i];
    }
  }

  /** An account made by `createSubAdmin` never logs in as itself: its name
      either has no credential or already belongs to an older account, which
      the lookup by username finds first. */
  lemma CreatedAccountNeverLogsIn(s: State, newName: Option<string>, now: Millis,
                                  username: string, password: string, later: Millis)
    requires CredentialsNameAccounts(s)
    ensures var s1 := CreateSubAdmin(s, newName, now).1;
      Login(s1, username, password, later).0.success ==>
        IndexOfUsername(s1.users, username).value < |s.users|
  {
    var s1 := CreateSubAdmin(s, newName, now).1;
    if Login(s1, username, password, later).0.success {
      var i :| 0 <= i < |s.users| && s.users[i].username == username;
      assert s1.users[i] == s.users[i];
    }
  }

  /** Changing fields other than the id keeps ids sequential. */
  lemma SameIdsKeepSequential(a: seq<User>, b: seq<User>)
    requires SequentialIds(a) && |a| == |b|
    requires forall i :: 0 <= i < |a| ==> a[i].id == b[i].id
    ensures SequentialIds(b)
  {
  }

  /** Appending an account numbered one past the length keeps ids sequential. */
  lemma AppendKeepsSequential(users: seq<User>, u: User)
    requires SequentialIds(users) && u.id == NatToString(|users| + 1)
    ensures SequentialIds(users + [u])
  {
    var r := users + [u];
    forall i | 0 <= i < |r|
      ensures r[i].id == NatToString(i + 1)
    {
      if i < |users| {
        assert r[i] == users[i];
      } else {
        assert i == |users| && r[i] == u;
      }
    }
  }

  /** Login, status updates and sub-admin creation keep ids sequential, so
      ids stay unique and a new account never shares an id. */
  lemma StepsKeepSequentialIds(s: State, username: string, password: string, userId: string,
                               isActive: bool, newName: Option<string>, now: Millis)
    requires SequentialIds(s.users)
    ensures SequentialIds(Login(s, username, password, now).1.users)
    ensures SequentialIds(UpdateUserStatus(s, userId, isActive).1.users)
    ensures SequentialIds(CreateSubAdmin(s, newName, now).1.users)
    ensures UniqueIds(CreateSubAdmin(s, newName, now).1.users)
  {
    SameIdsKeepSequential(s.users, Login(s, username, password, now).1.users);
    SameIdsKeepSequential(s.users, UpdateUserStatus(s, userId, isActive).1.users);
    var created := CreateSubAdmin(s, newName, now).1.users;
    var u := created[|s.users|];
    assert created == s.users + [u];
    AppendKeepsSequential(s.users, u);
    SequentialIdsUnique(created);
  }

  /** The protected-account invariant: no step of the service ever leaves a
      `main_admin` account inactive. */
  lemma StepsKeepMainAdminsActive(s: State, username: string, password: string, userId: string,
                                  isActive: bool, newName: Option<string>, p: ContentPatch, now: Millis)
    requires MainAdminsActive(s.users)
    ensures MainAdminsActive(Login(s, username, password, now).1.users)
    ensures MainAdminsActive(UpdateUserStatus(s, userId, isActive).1.users)
    ensures MainAdminsActive(CreateSubAdmin(s, newName, now).1.users)
    ensures MainAdminsActive(UpdateContent(s, p, now).1.users)
    ensures MainAdminsActive(Logout(s).users)
  {
  }

  /** A status update touches exactly one account and only its active flag. */
  lemma UpdateUserStatusIsLocal(s: State, userId: string, isActive: bool)
    requires UniqueIds(s.users)
    ensures var (r, s') := UpdateUserStatus(s, userId, isActive);
      && |s'.users| == |s.users|
      && (forall i :: 0 <= i < |s.users| && s.users[i].id != userId ==> s'.users[i] == s.users[i])
      && (forall i :: 0 <= i < |s.users| && s.users[i].id == userId ==>
            s'.users[i] == (if r.success then s.users[i].(isActive := isActive) else s.users[i]))
  {
  }

  /** Saving the admin form replaces every editable field, keeps the record's
      id and last editor, and restamps the time; saving the same form twice
      is the same as saving it once at the later time. */
  lemma SaveFormReplacesEditableFields(c: Content, form: Content, now: Millis, later: Millis)
    ensures Merge(c, FormPatch(form), now)
      == form.(id := c.id, updatedAt := now, updatedBy := c.updatedBy)
    ensures Merge(Merge(c, FormPatch(form), now), FormPatch(form), later)
      == Merge(c, FormPatch(form), later)
  {
  }

  /** A patch that supplies nothing only restamps the update time. */
  lemma EmptyPatchOnlyRestamps(c: Content, now: Millis)
    ensures Merge(c, ContentPatch(None, None, None, None, None, None, None, None, None), now)
      == c.(updatedAt := now)
  {
  }
}

=== FILE: types.dfy ===
/** The records the admin panel exchanges between client and server: an
    administrator account as the client sees it, the editable site content,
    a partial content update, and the response envelopes. Timestamps, which
    travel as ISO-8601 text, are modelled by the instant they denote, in
    milliseconds since the epoch. */
module Types {
  import opened Common

  type Millis = nat

  datatype Role = MainAdmin | SubAdmin

  /** An administrator account without its credential. */
  datatype User = User(
    id: string,
    username: string,
    role: Role,
    isActive: bool,
    lastLogin: Option<Millis>,
    createdAt: Millis)

  datatype Pricing = Pricing(
    slots: string,
    freeSpin: string,
    winRate: string,
    gkk99Bonus: string,
    gkk777Bonus: string)

  /** The singleton record of editable landing-page content. */
  datatype Content = Content(
    id: string,
    title: string,
    description: string,
    gkk99Link: string,
    gkk777Link: string,
    viberLink: string,
    pricing: Pricing,
    updatedAt: Millis,
    updatedBy: string)

  /** `Partial<ContentData>`: each top-level field may be left out. The
      partiality is shallow, so a supplied `pricing` is a whole object. */
  datatype ContentPatch = ContentPatch(
    id: Option<string>,
    title: Option<string>,
    description: Option<string>,
    gkk99Link: Option<string>,
    gkk777Link: Option<string>,
    viberLink: Option<string>,
    pricing: Option<Pricing>,
    updatedAt: Option<Millis>,
    updatedBy: Option<string>)

  /** The patch the admin form sends: every editable field, nothing else. */
  function FormPatch(c: Content): (p: ContentPatch)
    ensures p.id.None? && p.updatedAt.None? && p.updatedBy.None?
    ensures p.title == Some(c.title) && p.description == Some(c.description)
    ensures p.gkk99Link == Some(c.gkk99Link) && p.gkk777Link == Some(c.gkk777Link)
    ensures p.viberLink == Some(c.viberLink) && p.pricing == Some(c.pricing)
  {
    ContentPatch(None, Some(c.title), Some(c.description), Some(c.gkk99Link),
      Some(c.gkk777Link), Some(c.viberLink), Some(c.pricing), None, None)
  }

  /** The `pricing` object of a content update body, read one field at a
      time, so each of its fields may be left out on its own. */
  datatype PricingEdit = PricingEdit(
    slots: Option<string>,
    freeSpin: Option<string>,
    winRate: Option<string>,
    gkk99Bonus: Option<string>,
    gkk777Bonus: Option<string>)

  /** The fields of a content update body that the serverless handler reads;
      `id`, `updatedAt` and `updatedBy` in the body are never read. */
  datatype ContentEdit = ContentEdit(
    title: Option<string>,
    description: Option<string>,
    gkk99Link: Option<string>,
    gkk777Link: Option<string>,
    viberLink: Option<string>,
    pricing: Option<PricingEdit>)

  /** The body that sends a whole record's editable fields. */
  function WholeEdit(c: Content): (e: ContentEdit)
    ensures e.title == Some(c.title) && e.description == Some(c.description)
    ensures e.gkk99Link == Some(c.gkk99Link) && e.gkk777Link == Some(c.gkk777Link)
    ensures e.viberLink == Some(c.viberLink)
    ensures e.pricing == Some(PricingEdit(Some(c.pricing.slots), Some(c.pricing.freeSpin),
      Some(c.pricing.winRate), Some(c.pricing.gkk99Bonus), Some(c.pricing.gkk777Bonus)))
  {
    ContentEdit(Some(c.title), Some(c.description), Some(c.gkk99Link), Some(c.gkk777Link), Some(c.viberLink),
      Some(PricingEdit(Some(c.pricing.slots), Some(c.pricing.freeSpin), Some(c.pricing.winRate),
        Some(c.pricing.gkk99Bonus), Some(c.pricing.gkk777Bonus))))
  }

  /** `ApiResponse<T>`: `success`, and optional `data`, `message`, `error`. */
  datatype ApiResponse<T> = ApiResponse(
    success: bool,
    data: Option<T>,
    message: Option<string>,
    error: Option<string>)

  function Succeeded<T>(data: T): ApiResponse<T> {
    ApiResponse(true, Some(data), None, None)
  }

  function Failed<T>(error: string): ApiResponse<T> {
    ApiResponse(false, None, None, Some(error))
  }

  /** `AuthResponse`: the login reply, with a user and token on success. */
  datatype AuthResponse = AuthResponse(
    success: bool,
    user: Option<User>,
    token: Option<string>,
    message: Option<string>)

  /** The credential check both back ends make: the password must equal the
      entry the credential table holds for that username; a username without
      an entry never matches. */
  predicate PasswordMatches(passwords: map<string, string>, username: string, password: string) {
    username in passwords && passwords[username] == password
  }
}

=== FILE: use_auth.dfy ===
/** The `useAuth` hook: the client's view of who is logged in, driven by the
    mock service. Each hook action is one step over the hook's state and the
    service state together; the render-time flags are derived from the user. */
module UseAuth {
  import opened Common
  import opened Types
  import MockService

  const MsgLoginFailed := "Login failed"

  /** The hook's three pieces of state. */
  datatype AuthHook = AuthHook(user: Option<User>, loading: bool, error: Option<string>)

  /** What `login` hands back to the form. */
  datatype LoginOutcome = LoginOutcome(success: bool, message: Option<string>)

  /** `checkAuth`: without a stored token and a stored user the visitor is
      logged out; otherwise the service decides, and a refusal wipes both
      storage keys but not the service's in-memory token. */
  function CheckAuth(svc: MockService.State): (out: (AuthHook, MockService.State))
    ensures !out.0.loading && out.0.error.None?
    ensures out.1.users == svc.users && out.1.token == svc.token && out.1.content == svc.content
    ensures !Truthy(svc.storage.adminToken) || svc.storage.adminUser.None? ==>
      out == (AuthHook(None, false, None), svc)
    ensures Truthy(svc.storage.adminToken) && svc.storage.adminUser.Some? ==>
      var r := MockService.VerifyToken(svc);
      && (r.success ==> out == (AuthHook(r.data, false, None), svc))
      && (!r.success ==> out.0.user.None? && out.1.storage == MockService.Storage(None, None))
  {
    if !Truthy(svc.storage.adminToken) || svc.storage.adminUser.None? then
      (AuthHook(None, false, None), svc)
    else
      var r := MockService.VerifyToken(svc);
      if r.success && r.data.Some? then (AuthHook(r.data, false, None), svc)
      else (AuthHook(None, false, None), svc.(storage := MockService.Storage(None, None)))
  }

  /** `login`: a refusal keeps whatever user the hook showed and records the
      service's message, or a generic one when it gave none. */
  function Login(h: AuthHook, svc: MockService.State, username: string, password: string, now: Millis)
    : (out: (AuthHook, LoginOutcome, MockService.State))
    ensures var (r, svc') := MockService.Login(svc, username, password, now);
      && out.2 == svc'
      && out.1.success == r.success
      && (r.success ==> out.0 == AuthHook(r.user, false, None) && out.1.message.None?)
      && (!r.success ==> out.0 == h.(loading := false, error := Some(OrDefault(r.message, MsgLoginFailed)))
                         && out.1.message == r.message)
  {
    var (r, svc') := MockService.Login(svc, username, password, now);
    if r.success && r.user.Some? then (AuthHook(r.user, false, None), LoginOutcome(true, None), svc')
    else (h.(loading := false, error := Some(OrDefault(r.message, MsgLoginFailed))),
          LoginOutcome(false, r.message), svc')
  }

  /** `logout`: the hook forgets the user and the service is logged out. */
  function Logout(h: AuthHook, svc: MockService.State): (out: (AuthHook, MockService.State))
    ensures out.0.user.None? && out.0.loading == h.loading && out.0.error == h.error
    ensures out.1.token.None? && out.1.storage == MockService.Storage(None, None)
    ensures out.1.users == svc.users
  {
    (h.(user := None), MockService.Logout(svc))
  }

  predicate IsAuthenticated(h: AuthHook) {
    h.user.Some?
  }

  predicate IsMainAdmin(h: AuthHook) {
    h.user.Some? && h.user.value.role == MainAdmin
  }

  predicate IsSubAdmin(h: AuthHook) {
    h.user.Some? && h.user.value.role == SubAdmin
  }

  // ----- properties -----

  /** Exactly one of "logged out", "main admin", "sub admin" holds. */
  lemma RoleFlagsPartition(h: AuthHook)
    ensures IsAuthenticated(h) <==> IsMainAdmin(h) || IsSubAdmin(h)
    ensures !(IsMainAdmin(h) && IsSubAdmin(h))
  {
  }

  /** After a successful login, the next `checkAuth` on the same page (the
      service's state kept in memory) keeps the same user logged in and
      changes nothing in the service. */
  lemma LoginSurvivesNextCheck(h: AuthHook, svc: MockService.State, username: string, password: string, now: Millis)
    requires MockService.UniqueIds(svc.users)
    requires Login(h, svc, username, password, now).1.success
    ensures var (h', _, svc') := Login(h, svc, username, password, now);
      CheckAuth(svc') == (AuthHook(h'.user, false, None), svc')
  {
    var (r, svc') := MockService.Login(svc, username, password, now);
    MockService.LoginThenVerify(svc, username, password, now);
    assert Truthy(svc'.storage.adminToken) by {
      assert svc'.storage.adminToken == r.token;
      assert r.token.value == MockService.TOKEN_PREFIX + (r.user.value.id + "_" + NatToString(now));
    }
  }

  /** A failed login leaves the service untouched and never logs anyone in
      who was not already shown. */
  lemma FailedLoginChangesNothing(h: AuthHook, svc: MockService.State, username: string, password: string, now: Millis)
    requires !Login(h, svc, username, password, now).1.success
    ensures var (h', _, svc') := Login(h, svc, username, password, now);
      svc' == svc && h'.user == h.user && h'.error.Some?
  {
  }

  /** After `logout` nobody is shown, both by the next `checkAuth` on the
      same page and after a page reload, which rebuilds the service from the
      cleared storage. */
  lemma LogoutThenReload(h: AuthHook, svc: MockService.State, startedAt: Millis)
    ensures var (_, svc') := Logout(h, svc);
      && CheckAuth(svc') == (AuthHook(None, false, None), svc')
      && CheckAuth(MockService.Initial(svc.passwords, svc'.storage, startedAt)).0.user.None?
  {
  }

  /** A page reload after a successful login rebuilds the service from its
      seed and the stored token and user: the check shows the seed record
      with the logged-in id, active whatever happened before the reload, and
      nobody when the id is not a seed id (an account made by
      `createSubAdmin`). */
  lemma LoginThenPageReload(h: AuthHook, svc: MockService.State, username: string, password: string,
                            now: Millis, startedAt: Millis)
    requires Login(h, svc, username, password, now).1.success
    ensures var (h', _, svc') := Login(h, svc, username, password, now);
      var reloaded := MockService.Initial(svc.passwords, svc'.storage, startedAt);
      var k := MockService.IndexOfId(reloaded.users, h'.user.value.id);
      && (k.Some? ==> CheckAuth(reloaded) == (AuthHook(Some(reloaded.users[k.value]), false, None), reloaded)
                      && reloaded.users[k.value].isActive)
      && (k.None? ==> CheckAuth(reloaded).0.user.None?)
  {
    var (r, svc') := MockService.Login(svc, username, password, now);
    assert svc'.storage.adminToken == r.token;
    assert r.token.value == MockService.TOKEN_PREFIX + (r.user.value.id + "_" + NatToString(now));
    assert StartsWith(r.token.value, MockService.TOKEN_PREFIX);
  }

  /** A refused check wipes storage but leaves the service's in-memory token
      in place, so the account list still loads with it until `logout`. */
  lemma RefusedCheckKeepsServiceToken(svc: MockService.State)
    requires Truthy(svc.token) && svc.storage.adminUser.Some? && Truthy(svc.storage.adminToken)
    requires !MockService.VerifyToken(svc).success
    ensures var (h, svc') := CheckAuth(svc);
      && h.user.None? && svc'.storage == MockService.Storage(None, None)
      && MockService.GetUsers(svc').success
  {
  }

  /** An account deactivated after login is logged out by the next check on
      the same page. */
  lemma DeactivatedUserLoggedOutOnNextCheck(svc: MockService.State, k: nat)
    requires MockService.UniqueIds(svc.users)
    requires svc.storage.adminUser.Some? && k < |svc.users|
    requires svc.users[k].id == svc.storage.adminUser.value.id && !svc.users[k].isActive
    ensures CheckAuth(svc).0.user.None?
  {
    MockService.IndexOfIdUnique(svc.users, k);
  }
}

=== FILE: use_users.dfy ===
/** The `useUsers` hook: the client's copy of the account list, driven by the
    mock service. The mock hands back its own array from `getUsers`, so the
    hook's list is either that very array (`Shared`, it follows every later
    change to the service's list) or an array of the hook's own (`Own`). */
module UseUsers {
  import opened Common
  import opened Types
  import MockService

  const MsgFetchFailed := "Failed to fetch users"
  const MsgStatusFailed := "Failed to update user status"
  const MsgCreateFailed := "Failed to create sub-admin"

  datatype UserList = Shared | Own(users: seq<User>)

  datatype UsersHook = UsersHook(list: UserList, loading: bool, error: Option<string>)

  /** What `updateUserStatus` and `createSubAdmin` hand back to the page. */
  datatype Outcome = Outcome(success: bool, message: Option<string>)

  /** The accounts the hook shows while the service is in state `svc`. */
  function View(l: UserList, svc: MockService.State): (us: seq<User>)
    ensures l.Shared? ==> us == svc.users
    ensures l.Own? ==> us == l.users
  {
    match l
    case Shared => svc.users
    case Own(users) => users
  }

  /** `prev.map(user => user.id === id ? u : user)`. */
  function ReplaceById(users: seq<User>, id: string, u: User): (r: seq<User>)
    ensures |r| == |users|
    ensures forall i :: 0 <= i < |users| ==> r[i] == (if users[i].id == id then u else users[i])
  {
    seq(|users|, i requires 0 <= i < |users| => if users[i].id == id then u else users[i])
  }

  /** `fetchUsers` as written: on success the hook keeps the service's own
      array; on failure the list stays and the error is recorded. */
  function FetchUsersShared(h: UsersHook, svc: MockService.State): (h': UsersHook)
    ensures !h'.loading
    ensures Truthy(svc.token) ==> h' == UsersHook(Shared, false, None)
    ensures !Truthy(svc.token) ==> h' == UsersHook(h.list, false, Some("Unauthorized"))
  {
    var r := MockService.GetUsers(svc);
    if r.success && r.data.Some? then UsersHook(Shared, false, None)
    else UsersHook(h.list, false, Some(OrDefault(r.error, MsgFetchFailed)))
  }

  /** `fetchUsers` storing a copy of the list the service returned. */
  function FetchUsers(h: UsersHook, svc: MockService.State): (h': UsersHook)
    ensures !h'.loading
    ensures Truthy(svc.token) ==> h' == UsersHook(Own(svc.users), false, None)
    ensures !Truthy(svc.token) ==> h' == UsersHook(h.list, false, Some("Unauthorized"))
  {
    var r := MockService.GetUsers(svc);
    if r.success && r.data.Some? then UsersHook(Own(r.data.value), false, None)
    else UsersHook(h.list, false, Some(OrDefault(r.error, MsgFetchFailed)))
  }

  /** `updateUserStatus`: the list update runs after the service has changed,
      so a shared list is read in its new state. A failure records the
      service's error; a success does not clear an earlier one. */
  function UpdateUserStatus(h: UsersHook, svc: MockService.State, userId: string, isActive: bool)
    : (out: (UsersHook, Outcome, MockService.State))
    ensures var (r, svc') := MockService.UpdateUserStatus(svc, userId, isActive);
      && out.2 == svc'
      && out.1 == Outcome(r.success, if r.success then None else r.error)
      && (r.success ==>
            out.0 == h.(list := Own(ReplaceById(View(h.list, svc'), userId, r.data.value))))
      && (!r.success ==> out.0 == h.(error := Some(OrDefault(r.error, MsgStatusFailed))))
  {
    var (r, svc') := MockService.UpdateUserStatus(svc, userId, isActive);
    if r.success && r.data.Some? then
      (h.(list := Own(ReplaceById(View(h.list, svc'), userId, r.data.value))), Outcome(true, None), svc')
    else
      (h.(error := Some(OrDefault(r.error, MsgStatusFailed))), Outcome(false, r.error), svc')
  }

  /** `createSubAdmin`: `[...prev, created]`, with `prev` read after the
      service has appended the account. */
  function CreateSubAdmin(h: UsersHook, svc: MockService.State, username: Option<string>, now: Millis)
    : (out: (UsersHook, Outcome, MockService.State))
    ensures var (r, svc') := MockService.CreateSubAdmin(svc, username, now);
      && out.2 == svc' && out.1 == Outcome(true, None)
      && out.0 == h.(list := Own(View(h.list, svc') + [svc'.users[|svc.users|]]))
  {
    var (r, svc') := MockService.CreateSubAdmin(svc, username, now);
    if r.success && r.data.Some? then
      (h.(list := Own(View(h.list, svc') + [r.data.value])), Outcome(true, None), svc')
    else
      (h.(error := Some(OrDefault(r.error, MsgCreateFailed))), Outcome(false, r.error), svc')
  }

  // ----- properties -----

  /** With the list fetched as written, creating a sub-admin shows the new
      account twice: the shared array already holds it when it is appended. */
  lemma SharedFetchThenCreateDuplicates(h: UsersHook, svc: MockService.State, username: Option<string>, now: Millis)
    requires Truthy(svc.token)
    ensures var h1 := FetchUsersShared(h, svc);
      var (h2, _, svc') := CreateSubAdmin(h1, svc, username, now);
      var shown := View(h2.list, svc');
      && |shown| == |svc'.users| + 1
      && shown[|shown| - 1] == shown[|shown| - 2] == svc'.users[|svc.users|]
  {
  }

  /** With the list fetched as a copy, the hook's list equals the service's
      after the fetch and after every status update and creation. */
  lemma FetchShowsServiceList(h: UsersHook, svc: MockService.State)
    requires Truthy(svc.token)
    ensures View(FetchUsers(h, svc).list, svc) == svc.users
  {
  }

  /** Replacing the record with the id of position `k` by a new record
      replaces position `k` alone, when ids are unique. */
  lemma {:induction false} ReplaceByUniqueId(users: seq<User>, k: nat, u: User)
    requires MockService.UniqueIds(users) && k < |users|
    ensures ReplaceById(users, users[k].id, u) == users[k := u]
  {
    var r := ReplaceById(users, users[k].id, u);
    forall i | 0 <= i < |users|
      ensures r[i] == users[k := u][i]
    {
      if i < k {
        assert users[i].id != users[k].id;
      } else if i > k {
        assert users[k].id != users[i].id;
      }
    }
  }

  lemma StatusKeepsHookInStep(h: UsersHook, svc: MockService.State, userId: string, isActive: bool)
    requires MockService.SequentialIds(svc.users)
    requires View(h.list, svc) == svc.users
    ensures var (h', _, svc') := UpdateUserStatus(h, svc, userId, isActive);
      View(h'.list, svc') == svc'.users
  {
    var (r, svc') := MockService.UpdateUserStatus(svc, userId, isActive);
    if r.success {
      var k := MockService.IndexOfId(svc.users, userId).value;
      MockService.StepsKeepSequentialIds(svc, "", "", userId, isActive, None, 0);
      MockService.SequentialIdsUnique(svc'.users);
      ReplaceByUniqueId(svc'.users, k, r.data.value);
      if h.list.Own? {
        MockService.SequentialIdsUnique(svc.users);
        ReplaceByUniqueId(svc.users, k, r.data.value);
      }
    }
  }

  lemma CreateKeepsHookInStep(h: UsersHook, svc: MockService.State, username: Option<string>, now: Millis)
    requires h.list.Own? && View(h.list, svc) == svc.users
    ensures var (h', _, svc') := CreateSubAdmin(h, svc, username, now);
      View(h'.list, svc') == svc'.users
  {
    var svc' := MockService.CreateSubAdmin(svc, username, now).1;
    assert svc'.users == svc'.users[..|svc.users|] + [svc'.users[|svc.users|]];
  }
}
